=== FILE: README.md ===
# OpenManus sandbox client, code-execution tool, log parsers and fake LLM in Dafny

This project models five pieces of the OpenManus agent framework and proves what they promise.

- **The process-wide sandbox client** (`app/sandbox/client.py`, module `SandboxClient`). It is a singleton. It holds at most one Docker sandbox driver, and `create` builds that driver only when the configuration enables the sandbox. The five accessors forward to the driver or raise "Sandbox not initialized". `cleanup` tears the driver down and forgets it. The driver is opaque: every call made to it is recorded, and its reply is an input. Whether its constructor raises is an input too (`SandboxClient.DriverStart`).
- **The `python_execute` tool** (`app/tool/python_execute.py`, module `PythonExecute`). It runs code either in a child process with a timeout or in the sandbox, through a temp file that is copied into the container and run as `python /workspace/<name>`. Every path returns an `{observation, success}` value. The child process, the temp file and the driver replies are inputs.
- **`parse_metrics_from_log`** (`test_perf/run_and_collect.py`, module `RunAndCollect`). It counts sandbox creations, lists the tools called, and turns the last token-usage line into a key/value map. The three regular expressions are modelled by what `re.findall` returns for them.
- **`parse_log`** (`test_perf/io/test_sandbox_io_parselog.py`, module `IoParseLog`). It is a line-driven state machine that assembles one record per "Testing write size" block and keeps only the blocks with all four timings.
- **The fake LLM** (`app/fake_llm.py`, module `FakeLlm`). It hands out a fixed list of replies round-robin, whatever it is asked. The module's own three-reply instance is modelled too.

Supporting modules:

- `Outcomes` holds `Option` and `Outcome`. `Outcome` is a value or a raised exception's text.
- `Text` holds the pieces of Python's string library that the code relies on:
  - `str.isspace`/`strip`;
  - `split(sep)` and `split(sep, 1)`;
  - `int(text)`;
  - f-string formatting of an `int`;
  - `pathlib.Path(p).name`.

Four behaviours of the code are easy to overlook. The model follows the code in each.

- `_execute_in_sandbox` removes the local temp file only on the success path, after copy and run (line 116); there is no `finally`. A failure after the file was written leaves it on disk holding the code. `PythonExecute.RunScript`, `PythonExecute.ExecuteInSandbox` and `PythonExecute.DisabledClientLeavesTempFile` state this.
- `create` imports the global configuration before it reads the explicit `use_sandbox` override. A failing import therefore enables the sandbox even when the override says `False` (`SandboxClient.ResolveUseSandbox`).
- The token-usage expression `Token usage: (.*)` captures up to the end of the line. A second marker on the same line is part of the first match, not a match of its own, so "the last occurrence" means the last line that holds the marker (`RunAndCollect.TokenUsageMatches`, `RunAndCollect.TokenUsageFromLastLine`).
- `int(v)` in the token map skips the same surrounding white space as `strip()`, with one exception: the information separators U+001C to U+001F. `strip()` removes them, but `int()` never skips them, in any text, so a value padded with one stays text (`Text.ParseInt`, `Text.InfoSeparatorStopsInt`, `RunAndCollect.SeparatorPaddedValueIsText`). A run of more than 4300 digits, the default `int_max_str_digits`, also stays text (`Text.TooManyDigitsStopsInt`, `RunAndCollect.LongDigitRunIsText`).

## Model

| member | source | states |
|---|---|---|
| SandboxClient.Instantiate | app/sandbox/client.py:91-102 | The first construction fills the class slot with a client without a session; every later construction returns the client already in the slot, session untouched. |
| SandboxClient.GetInstance | app/sandbox/client.py:104-109 | `get_instance` agrees with the constructor: it builds only when the slot is empty and otherwise returns the stored client. |
| SandboxClient.InstantiateTwice | app/sandbox/client.py:91-96 | Constructing twice gives the same client and slot as constructing once: the class is a singleton. |
| SandboxClient.Override | app/sandbox/client.py:138-142 | The explicit setting exists exactly when `config` is given, has `use_sandbox`, and that attribute is not None; its value is the attribute. |
| SandboxClient.ResolveUseSandbox | app/sandbox/client.py:134-152 | The sandbox is disabled exactly when the global configuration loads and either the override is False, or there is no override and the global `use_sandbox` is None or False. A missing attribute, an unreadable section or a failing import all mean enabled. |
| SandboxClient.Create | app/sandbox/client.py:111-156 | With a session it returns at once. When disabled it changes nothing and calls no driver. When enabled and the constructor raises, that exception propagates and nothing is stored. Otherwise it builds exactly one new driver from `config` and `volume_bindings`, stores it, then calls its `create`; that call's failure propagates but the session stays set. |
| SandboxClient.RunCommand | app/sandbox/client.py:158-173 | Without a session it raises "Sandbox not initialized" and calls no driver; with one, the driver receives exactly the command and timeout, and its reply is returned. |
| SandboxClient.CopyFrom | app/sandbox/client.py:175-187 | Same guard; the driver receives the container and local paths in that order. |
| SandboxClient.CopyTo | app/sandbox/client.py:189-201 | Same guard; the driver receives the local and container paths in that order. |
| SandboxClient.ReadFile | app/sandbox/client.py:203-217 | Same guard; the driver's content is returned. |
| SandboxClient.WriteFile | app/sandbox/client.py:219-231 | Same guard; the driver receives the path and the content. |
| SandboxClient.Cleanup | app/sandbox/client.py:233-237 | Without a session nothing happens. With one, the driver's cleanup is called once; the session is forgotten exactly when that call returns, and stays if it raises. |
| SandboxClient.CreateIsIdempotent | app/sandbox/client.py:130-132 | Once `create` has left a session, a second `create` with any arguments returns at once and changes nothing. |
| SandboxClient.DisabledThenRunFails | app/sandbox/client.py:150-152 | After a disabled `create` on a fresh client, `run_command` raises "Sandbox not initialized" without calling a driver. |
| SandboxClient.FailedConstructionIsRetried | app/sandbox/client.py:153-156 | A constructor that raises leaves the client as it was, so the next enabled `create` builds a driver again. |
| SandboxClient.RestartBuildsFreshDriver | app/sandbox/client.py:155-156 | After create, a successful cleanup, and create again, the second driver is a new object, not the first one. |
| SandboxClient.ApplyKeepsNoAbandonedDriver | app/sandbox/client.py:111-237 | Every client operation keeps the invariant that each driver built is either the current session or has had its cleanup called. |
| SandboxClient.NoDriverIsAbandoned | app/sandbox/client.py:111-237 | From a fresh client, after any sequence of operations, no driver is abandoned: at most one driver is live at a time. |
| PythonExecute.RunCode | app/tool/python_execute.py:28-40 | The child writes a result exactly when the code completed or raised an `Exception`. Success holds exactly on completion, with the printed text as observation; an exception's text replaces it. |
| PythonExecute.TimeoutMessage | app/tool/python_execute.py:73-76 | The message opens with "Execution timeout after " and ends with " seconds", with a non-empty text between them. |
| PythonExecute.TimeoutMessageNamesTimeout | app/tool/python_execute.py:73-76 | For every timeout of at most 4300 digits, the one Python can format, the timeout message is its fixed words around a text that `int()` reads back as the timeout. |
| PythonExecute.ExecuteInCurrentEnv | app/tool/python_execute.py:42-77 | A child still alive after the wait gives the timeout result whatever it wrote. Otherwise success holds exactly when the code completed. A child that wrote nothing leaves the initial `{"", False}`. |
| PythonExecute.ContainerPath | app/tool/python_execute.py:108 | The container path is "/workspace/" followed by the temp file's last path component, which holds no '/'. |
| PythonExecute.PythonCommand | app/tool/python_execute.py:112 | The command is "python " followed by the container path. |
| PythonExecute.SandboxError | app/tool/python_execute.py:122-127 | A failed result whose observation is the fixed prefix followed by the exception's text unchanged. |
| PythonExecute.RunAndUnlink | app/tool/python_execute.py:111-121 | Success holds exactly when there is a session and both the run and the unlink succeed. The run's output is then the observation and no file is left. With a session the driver receives exactly `python /workspace/<name>` with the caller's timeout. |
| PythonExecute.RunScript | app/tool/python_execute.py:100-121 | Success holds exactly when there is a session and temp file, copy, run and unlink all succeed. Any failure is a sandbox error. A leftover file is the temp file holding the code, and every failure after the file was written leaves it. The driver call count is 2 after a good copy and 1 otherwise. |
| PythonExecute.RunScriptCalls | app/tool/python_execute.py:107-113 | The first driver call copies the temp file to "/workspace/<name>"; after a good copy the second runs "python /workspace/<name>" with the caller's timeout. |
| PythonExecute.ExecuteInSandbox | app/tool/python_execute.py:79-127 | Success holds exactly when `create` and every later step succeed, with the run's output as observation and no file left. Every failure is "Sandbox execution error: ...". A failure after the temp file was written leaves that file holding the code. A failing `create` comes before the file is written and leaves none. The client afterwards is the one `create` left. |
| PythonExecute.DisabledClientLeavesTempFile | app/tool/python_execute.py:98-109 | With the sandbox disabled and no session, the result is "Sandbox execution error: Sandbox not initialized", no driver is called, and the temp file is left behind. |
| PythonExecute.NotInitializedText | app/tool/python_execute.py:122-127 | The client's "Sandbox not initialized" becomes the observation "Sandbox execution error: Sandbox not initialized". |
| PythonExecute.FailedDriverCreationIsKept | app/tool/python_execute.py:94-99 | A failing driver creation is reported before any temp file is written, but the driver stays stored, so the next call builds none and goes straight to copying the script. |
| PythonExecute.FailedConstructionWritesNothing | app/tool/python_execute.py:94-99 | When the driver's constructor raises, the error is reported, no temp file is written, no driver is called and the client is unchanged. |
| PythonExecute.Execute | app/tool/python_execute.py:129-163 | The sandbox path runs exactly when the configuration reads as true. A failing read means the local path, which leaves the client alone and calls no driver. |
| PythonExecute.DefaultTimeoutObservation | app/tool/python_execute.py:45-76 | With the default timeout of 5 seconds, a local run still alive after the wait reports "Execution timeout after 5 seconds", fails, calls no driver and leaves no file. |
| PythonExecute.ExecuteFailureShapes | app/tool/python_execute.py:129-163 | A failed result is always one of: a sandbox error, the timeout message, the child's exception text, or the initial empty observation. |
| RunAndCollect.CountOccurrences | test_perf/run_and_collect.py:24 | The non-overlapping count fits in the text (count times pattern length is at most its length) and is zero exactly when the pattern does not occur. |
| RunAndCollect.CountCreations | test_perf/run_and_collect.py:31 | The scanning loop computes the non-overlapping count, zero exactly when no creation line occurs. |
| RunAndCollect.CountAcrossLineBreak | test_perf/run_and_collect.py:24-31 | For a pattern without a line break, the count over two texts joined by a line break is the sum of their counts. |
| RunAndCollect.MatchToolAt | test_perf/run_and_collect.py:25 | A match at the start is the prefix, a non-empty name of `[\w_\-]` characters, and a quote; the name is what is captured. |
| RunAndCollect.ToolNames | test_perf/run_and_collect.py:34 | Every captured tool name is a non-empty run of name characters. |
| RunAndCollect.ToolNamesAcrossLineBreak | test_perf/run_and_collect.py:25-34 | The names found in two texts joined by a line break are those of the first followed by those of the second. |
| RunAndCollect.ToolNamesAroundLine | test_perf/run_and_collect.py:25-34 | One announcement line placed between any two texts adds exactly its name, between their names. |
| RunAndCollect.ToolNamesOfToolLog | test_perf/run_and_collect.py:25-34 | From a log of "Activating tool: '<name>'" lines, the names are read back exactly and in order. |
| RunAndCollect.RestOfLine | test_perf/run_and_collect.py:23 | `(.*)` captures the longest line-break-free prefix: it stops at the first line break or the end. |
| RunAndCollect.TokenUsageMatches | test_perf/run_and_collect.py:23-37 | There are no matches exactly when the marker does not occur, and no match holds a line break. |
| RunAndCollect.TokenUsageAcrossLineBreak | test_perf/run_and_collect.py:23-37 | The matches in two texts joined by a line break are those of the first followed by those of the second: no match crosses a line. |
| RunAndCollect.ValueOf | test_perf/run_and_collect.py:45-48 | A value is an integer exactly when `int()` accepts the text, and then it is that integer; otherwise it is the stripped text. |
| RunAndCollect.SeparatorPaddedValueIsText | test_perf/run_and_collect.py:45-48 | A value surrounded by white space that includes an information separator is stored as the stripped text, never as an integer: `"\x1c5\xa0"` gives "5", not 5. |
| RunAndCollect.LongDigitRunIsText | test_perf/run_and_collect.py:45-48 | A value of more than 4300 digits, padded with any white space, falls into the `except` and is stored as the stripped digits, not as an integer. |
| RunAndCollect.ParsePart | test_perf/run_and_collect.py:43 | A part contributes an entry exactly when it holds '='. |
| RunAndCollect.ParsePartSplits | test_perf/run_and_collect.py:43-48 | A part with '=' is split at its first '=': the key is the stripped text before it, and the value is read from everything after it. |
| RunAndCollect.Parts | test_perf/run_and_collect.py:40 | One part per comma-separated piece of the line, each stripped, in order. |
| RunAndCollect.CollectKeys | test_perf/run_and_collect.py:41-48 | Filling a dictionary in order, a key ends up in it exactly when some entry has that key. |
| RunAndCollect.CollectLastWins | test_perf/run_and_collect.py:41-48 | Filling a dictionary in order, a key holds the value of the last entry with that key. |
| RunAndCollect.TokenMap | test_perf/run_and_collect.py:41-49 | A key is in the token map exactly when some part contributes it. |
| RunAndCollect.TokenMapLastWins | test_perf/run_and_collect.py:41-49 | For a key given more than once, the map holds the value of the last part with that key. |
| RunAndCollect.ParseMetrics | test_perf/run_and_collect.py:28-53 | Token usage is None exactly when no token-usage marker occurs. The creation count is zero exactly when no creation marker occurs. Every tool listed is a well-formed name. |
| RunAndCollect.MetricsOfCombinedOutput | test_perf/run_and_collect.py:76-80 | On output and error streams joined by a line break, the creation counts add up, the output's tools come before the error stream's, and the token usage is the error stream's when it has any, else the output's. |
| RunAndCollect.TokenUsageFromLastLine | test_perf/run_and_collect.py:36-49 | A line "Token usage: <line>" with only marker-free lines after it decides the map alone, read from `<line>`, whatever comes before it. |
| RunAndCollect.LastMatchIsLine | test_perf/run_and_collect.py:37-39 | The last match of such a log is exactly that line's text. |
| RunAndCollect.OnlyMatch | test_perf/run_and_collect.py:23-37 | A marker, its line, then marker-free lines yield exactly that line as the only match. |
| IoParseLog.Capture | test_perf/io/test_sandbox_io_parselog.py:13-18 | After a literal, a capture is a greedy `[\d.]+` run followed by a unit and "B" for sizes, or by "s" for timings. It is a prefix of what follows the literal. |
| IoParseLog.MatchAt | test_perf/io/test_sandbox_io_parselog.py:13-18 | A match at a position is the pattern's literal, a captured text of the right shape, and the trailer. |
| IoParseLog.MatchAtOf | test_perf/io/test_sandbox_io_parselog.py:13-18 | A literal, a text of the right shape, and the trailer, followed by anything, are matched back to exactly that text. |
| IoParseLog.Search | test_perf/io/test_sandbox_io_parselog.py:32 | What `search` returns is a text of the pattern's shape. |
| IoParseLog.SearchIsLeftmost | test_perf/io/test_sandbox_io_parselog.py:32 | The search fails exactly when no position matches, and otherwise reports the leftmost matching position. |
| IoParseLog.FirstHit | test_perf/io/test_sandbox_io_parselog.py:41-45 | A hit is the value the search for its key's pattern returns on the line. |
| IoParseLog.FirstHitIsFirst | test_perf/io/test_sandbox_io_parselog.py:41-45 | No key hits exactly when no timing pattern matches. Otherwise the hit is the first key, in the listed order, whose pattern matches: the `break`. |
| IoParseLog.Classify | test_perf/io/test_sandbox_io_parselog.py:32-45 | A line is a size line exactly when the size pattern matches, and then the timings are not tried. Any other line carries its first timing hit. Every carried text has its pattern's shape. |
| IoParseLog.Emit | test_perf/io/test_sandbox_io_parselog.py:25-27 | `finalize` appends one record exactly when all five keys are present, holding their values, and nothing otherwise. |
| IoParseLog.ApplyTimes | test_perf/io/test_sandbox_io_parselog.py:41-45 | A timing hit stores its value under its key, replacing an earlier one; without a hit `current` is unchanged. The size is never touched. |
| IoParseLog.Run | test_perf/io/test_sandbox_io_parselog.py:30-45 | Each emitted record is paid for by a size line. Once a size line is read, `current` keeps a size. Without any size line nothing is emitted. |
| IoParseLog.RunKeepsWellFormed | test_perf/io/test_sandbox_io_parselog.py:30-45 | Every record emitted, and `current` at every point, holds only texts the patterns capture. |
| IoParseLog.ParseLog | test_perf/io/test_sandbox_io_parselog.py:21-49 | There are at most as many records as size lines, and every field of every record holds a captured text. |
| IoParseLog.FillTimesKeepsSize | test_perf/io/test_sandbox_io_parselog.py:41-45 | Timing lines never supply a size. |
| IoParseLog.RunByBlocks | test_perf/io/test_sandbox_io_parselog.py:30-48 | The loop from any state equals the current block, completed by its remaining timing lines, followed by the block-by-block records of the rest of the log. |
| IoParseLog.ParseLogByBlocks | test_perf/io/test_sandbox_io_parselog.py:21-49 | `parse_log` equals the block-by-block reading: from the first size line on, each size line yields the record of its own block, in log order, when that block is complete. |
| IoParseLog.PreambleIsDropped | test_perf/io/test_sandbox_io_parselog.py:23-37 | Lines before the first size line contribute nothing to the result. |
| IoParseLog.FillTimesKeepsKey | test_perf/io/test_sandbox_io_parselog.py:41-45 | Lines whose first hit is another key leave a timing as it was, present or absent. |
| IoParseLog.LastValueWins | test_perf/io/test_sandbox_io_parselog.py:41-45 | Within a block, a timing holds the value of the last line whose first matching pattern is its own. |
| IoParseLog.ClassifySizeHeader | test_perf/io/test_sandbox_io_parselog.py:32-38 | A "Testing write size <size>" line is read as a size line carrying exactly its size text, whatever follows the size, such as " (1024 bytes)". |
| IoParseLog.NoSizeInTimeLine | test_perf/io/test_sandbox_io_parselog.py:13-18 | A printed timing line never matches the size pattern, so it never starts a block. |
| IoParseLog.NoEarlierMatch | test_perf/io/test_sandbox_io_parselog.py:13-18 | A printed timing line matches no timing pattern listed before its own key. In particular "total_write_time=" contains no match of "put_archive_time=". |
| IoParseLog.ClassifyTimeLine | test_perf/io/test_sandbox_io_parselog.py:41-45 | A printed timing line is read as a hit of its own key with its own value. |
| IoParseLog.KindsOfRenderLog | test_perf/io/test_sandbox_io_parselog.py:30-45 | Each line of a printed log is classified as the line it was printed from. |
| IoParseLog.RecordsOfRenderKinds | test_perf/io/test_sandbox_io_parselog.py:25-48 | Blocks of one size line and four timing lines give back, block by block, the records they were printed from. |
| IoParseLog.ParseLogOfRenderLog | test_perf/io/test_sandbox_io_parselog.py:21-49 | Writing records as a size line, with any tail, followed by one line per timing, and parsing that log gives the same records back in order. |
| FakeLlm.New | app/fake_llm.py:14-16 | The cursor starts at the first reply. The fake is usable exactly when the list is non-empty. |
| FakeLlm.AskTool | app/fake_llm.py:18-22 | The reply is the response under the cursor. The cursor moves one step on, back to 0 after the last reply, and stays in range. |
| FakeLlm.AskToolIgnoresArguments | app/fake_llm.py:18-22 | The reply and the next state do not depend on the messages, system messages, tools or tool choice. |
| FakeLlm.AskMany | app/fake_llm.py:18-22 | `k` calls yield `k` replies and keep the responses and a valid cursor. |
| FakeLlm.AskManyEndsAt | app/fake_llm.py:21 | After `k` calls from cursor `i`, the cursor is at `(i + k) mod n`. |
| FakeLlm.AskManyCycles | app/fake_llm.py:18-22 | From cursor `i`, the `j`-th of `k` calls returns reply `(i + j) mod n`: the replies cycle with period `n`. |
| FakeLlm.FreshCycles | app/fake_llm.py:14-22 | Starting fresh, the `j`-th call returns reply `j mod n`. |
| FakeLlm.InstanceScript | app/fake_llm.py:26-72 | The instance returns hello0, hello1, hello2 in that order, the third being the `terminate` call, and is then back at its start. |
| FakeLlm.InstanceTerminatesEveryThirdCall | app/fake_llm.py:56-72 | A call of the instance is the `terminate` call exactly when its number is 2 mod 3. |
| Text.Strip | test_perf/run_and_collect.py:40 | The result neither starts nor ends with white space, and the input is the result framed by white space on both sides. |
| Text.StripOfPadded | test_perf/run_and_collect.py:40 | Stripping any white-space padding around a text without white space at its ends gives the text back. |
| Text.Split | test_perf/run_and_collect.py:40 | There is at least one part, no part holds the separator, and joining the parts with it gives the text back. |
| Text.SplitJoin | test_perf/run_and_collect.py:40 | Splitting a join of separator-free parts gives the parts back. |
| Text.FirstIndex | test_perf/run_and_collect.py:43 | The index exists exactly when the character occurs, and it is the first occurrence. |
| Text.SplitOnce | test_perf/run_and_collect.py:44 | It splits exactly when the separator occurs: the text is the first piece, the separator, then the rest, and the first piece holds no separator. |
| Text.Basename | app/tool/python_execute.py:108 | The name is the longest '/'-free suffix of the path. |
| Text.IntToString | app/tool/python_execute.py:74 | The decimal text of an integer: a minus sign only for negatives, then digits whose value is the magnitude. |
| Text.ParseInt | test_perf/run_and_collect.py:46 | `int()` never accepts a text that is all white space, refuses every text holding an information separator, and refuses a run of more than 4300 digits. |
| Text.TooManyDigitsStopsInt | test_perf/run_and_collect.py:46 | A digit run longer than 4300 digits is refused whatever white space surrounds it, the default `int_max_str_digits` limit. |
| Text.NatDigitsBelow | test_perf/run_and_collect.py:46 | A natural number has at most k digits exactly when it is below 10^k. |
| Text.DigitCountBelow | test_perf/run_and_collect.py:46 | An integer has at most k digits exactly when its magnitude is below 10^k, so the digit limit reads as -10^4300 < n < 10^4300. |
| Text.InfoSeparatorStopsInt | test_perf/run_and_collect.py:46 | `int("\x1c5")` and `int("\x1c5\xa0")` both fail, although `strip()` removes the separator. |
| Text.PaddingAround | test_perf/run_and_collect.py:46 | Putting a separator-free text between two paddings does not change whether the whole holds an information separator. |
| Text.ParseIntOfFormatted | test_perf/run_and_collect.py:46 | `int()` reads a formatted integer of at most 4300 digits back when it is surrounded by any white space other than the information separators. |
| Text.IntToStringChars | app/tool/python_execute.py:74 | A formatted integer consists of digits with at most a leading minus sign, so it holds no information separator. |
| Text.ParseIntOfString | app/tool/python_execute.py:74 | A formatted integer of at most 4300 digits reads back as itself. |

## Left out

- Concurrency: the client's `asyncio.Lock` and the `await`s are not modelled. Operations are taken one at a time, so races between concurrent `create` calls are out of scope.
- Logging: the `logger` calls change no result and are omitted.
- The Docker sandbox itself (`DockerSandbox`) is not part of this model. Whether its constructor raises, and with what text, is an input (`SandboxClient.DriverStart`). Its `create` and each forwarded call are recorded calls whose replies are inputs.
- `PythonExecute.ExecuteInCurrentEnv`:
  - `exec`, `multiprocessing` and `StringIO` capture become the `Child` input;
  - `terminate()` and the grace `join(1)` are left out;
  - the `safe_globals` dictionary is left out, since it affects only what the code can reach.
- `PythonExecute.ExecuteInSandbox`:
  - the temp file's creation and its `write` are one input (the path or an exception), so a write failing after the file exists is not separated from a failing creation;
  - the failure of `Path.unlink` is an input too.
- `PythonExecute.Execute`: the configuration read is an input (`ConfigRead`). The global configuration module is not part of this model.
- `PythonExecute.Execute`: exceptions that are not an `Exception` (a `BaseException` such as `asyncio.CancelledError` or `KeyboardInterrupt`) pass the `except` of the sandbox path and propagate. So do failures of the local path's process machinery (`multiprocessing.Manager()`, `proc.start()`), which has no `try`. The model has no such outcome: `Execute` always returns a result.
- `PythonExecute.TimeoutMessage`: Python refuses to format an integer of more than 4300 digits, so such a timeout has no message there. The model formats any timeout, and `PythonExecute.TimeoutMessageNamesTimeout` is stated within the limit.
- `Text.Basename`: `pathlib` also drops trailing slashes and normalises `//`. The model takes the last component as written; the temp file's path never ends in '/'.
- `RunAndCollect.MatchToolAt`: `\w` is restricted to ASCII letters, digits and the underscore, whereas Python's `\w` also accepts Unicode word characters.
- `IoParseLog.Capture`: `\d` is restricted to ASCII digits, whereas Python's `\d` also accepts Unicode decimal digits.
- `Text.ParseInt`: its own contract states only that a blank text is refused and that any information separator stops it. The read-back of formatted integers is proved separately, in `Text.ParseIntOfFormatted`.
- `Text.ParseInt`: `int()` also accepts underscores between digits and non-ASCII decimal digits. These are not modelled, so such values are read as text here. The digit limit is modelled at its default of 4300; a program that changes it with `sys.set_int_max_str_digits` is not.
- `IoParseLog.Search`: its own contract states only the shape of what is captured. The leftmost-match property is proved separately, in `IoParseLog.SearchIsLeftmost`.
- `IoParseLog.FirstHit`: its own contract states only that a hit is its pattern's search result. The first-in-order property is proved separately, in `IoParseLog.FirstHitIsFirst`.
- `IoParseLog.ParseLog`: records hold the captured text of each timing, not `float(...)` of it. The `ValueError` that `float()` raises on texts such as "1.2.3" or "." (which `[\d.]+` accepts) is therefore not modelled, and neither is floating point.
- `IoParseLog.ParseLog`: opening and reading the file is left out; the lines are given as a sequence.
- `IoParseLog.RenderLog`: the timing lines come from the sandbox driver's own logging, which is not part of this model. The round trip is stated for logs written in the form the parser's patterns describe.
- `RunAndCollect.ParseMetrics`: the `Dict[str, Any]` becomes a `Metrics` datatype. Dictionary insertion order is not modelled; the token map is a `map`.
- `RunAndCollect.TokenUsageFromLastLine`: stated for a marker that starts a line. The first marker on a line makes the text before it on that line irrelevant too, but that case is not stated separately; a later marker on the same line is part of the first one's value.
- `FakeLlm.AskTool`: an empty response list is excluded by a precondition. There Python raises `IndexError` at the indexing, before the modulo is reached, and `FakeLLM([])` can be built but never asked.
- `FakeLlm.Reply`: a `ChatCompletionMessage` is reduced to its content and its one tool call (id, name, arguments); the role is always "assistant".
- The other scripts of test_perf (process snapshots, the benchmark runners, CSV writing and plotting) and main.py are not part of this model.

=== FILE: FakeLlm.dfy ===
/**
 * `FakeLLM` of app/fake_llm.py: a stand-in for the language model that hands
 * out a fixed list of replies in turn, wrapping round at the end, whatever it
 * is asked.
 */
module FakeLlm {
  import opened Outcomes

  /** The replies and the cursor `index` into them. */
  datatype FakeLlm<T> = FakeLlm(responses: seq<T>, index: nat)

  /** The cursor points at a reply. */
  predicate Valid<T>(f: FakeLlm<T>) {
    f.index < |f.responses|
  }

  /** `FakeLLM(responses)`: the cursor starts at the first reply. */
  function New<T>(responses: seq<T>): (f: FakeLlm<T>)
    ensures f.responses == responses && f.index == 0
    ensures Valid(f) <==> |responses| > 0
  {
    FakeLlm(responses, 0)
  }

  /**
   * `ask_tool`: the reply under the cursor, and the cursor moved one step on,
   * back to the start after the last reply. The arguments play no part.
   * Indexing an empty list raises, so the cursor must point at a reply.
   */
  function AskTool<T, M, S, U, C>(f: FakeLlm<T>, messages: M, systemMsgs: Option<S>, tools: Option<U>, toolChoice: Option<C>): (r: (T, FakeLlm<T>))
    requires Valid(f)
    ensures r.0 == f.responses[f.index] && r.0 in f.responses
    ensures r.1.responses == f.responses && Valid(r.1)
    ensures r.1.index == if f.index + 1 == |f.responses| then 0 else f.index + 1
  {
    (f.responses[f.index], f.(index := (f.index + 1) % |f.responses|))
  }

  /** The reply and the next state depend on the cursor alone, not on what is asked. */
  lemma AskToolIgnoresArguments<T, M, S, U, C>(
    f: FakeLlm<T>,
    m1: M, s1: Option<S>, t1: Option<U>, c1: Option<C>,
    m2: M, s2: Option<S>, t2: Option<U>, c2: Option<C>)
    requires Valid(f)
    ensures AskTool(f, m1, s1, t1, c1) == AskTool(f, m2, s2, t2, c2)
    ensures AskTool(f, m1, s1, t1, c1).0 == f.responses[f.index]
  {
  }

  /** `k` calls in a row (with no arguments), collecting the replies in order. */
  function AskMany<T>(f: FakeLlm<T>, k: nat): (r: (seq<T>, FakeLlm<T>))
    requires Valid(f)
    ensures |r.0| == k
    ensures r.1.responses == f.responses && Valid(r.1)
    decreases k
  {
    if k == 0 then ([], f)
    else
      var (reply, next) := AskTool<T, (), (), (), ()>(f, (), None, None, None);
      var (replies, last) := AskMany(next, k - 1);
      ([reply] + replies, last)
  }

  lemma {:induction false} MulAtLeast(d: nat, n: nat)
    requires d >= 1
    ensures d * n >= n
    decreases d
  {
    if d > 1 {
      MulAtLeast(d - 1, n);
      assert d * n == (d - 1) * n + n;
    }
  }

  /** Euclidean division is unique: a quotient and a remainder in range are the ones `/` and `%` give. */
  lemma DivModUnique(a: int, n: int, q: int, r: int)
    requires n > 0 && 0 <= r < n && a == q * n + r
    ensures a / n == q && a % n == r
  {
    var q0 := a / n;
    var r0 := a % n;
    assert a == q0 * n + r0;
    if q > q0 {
      MulAtLeast(q - q0, n);
    } else if q < q0 {
      MulAtLeast(q0 - q, n);
    }
  }

  /** Adding the period does not move a position on the cycle. */
  lemma ModAddPeriod(x: nat, n: nat)
    requires n > 0
    ensures (x + n) % n == x % n
  {
    var q := x / n;
    var r := x % n;
    assert x == q * n + r;
    assert (q + 1) * n == q * n + n;
    DivModUnique(x + n, n, q + 1, r);
  }

  /** One step of the cursor followed by `j` more lands where `j + 1` steps from the start do. */
  lemma StepIndex(n: nat, i: nat, c: nat, j: nat)
    requires 0 < n && i < n
    requires c == if i + 1 == n then 0 else i + 1
    ensures (c + j) % n == (i + 1 + j) % n
  {
    if i + 1 == n {
      ModAddPeriod(j, n);
      assert i + 1 + j == j + n;
    }
  }

  /** After `k` calls from cursor `i` the cursor is at `(i + k) mod n`. */
  lemma {:induction false} AskManyEndsAt<T>(f: FakeLlm<T>, k: nat)
    requires Valid(f)
    ensures AskMany(f, k).1.index == (f.index + k) % |f.responses|
    decreases k
  {
    var n := |f.responses|;
    var i := f.index;
    if k == 0 {
      DivModUnique(i, n, 0, i);
    } else {
      var next := AskTool<T, (), (), (), ()>(f, (), None, None, None).1;
      AskManyEndsAt(next, k - 1);
      StepIndex(n, i, next.index, k - 1);
      assert i + 1 + (k - 1) == i + k;
    }
  }

  /**
   * From cursor `i`, the `j`-th of `k` calls returns reply `(i + j) mod n`, and
   * the cursor ends at `(i + k) mod n`: the replies cycle with period `n`.
   */
  lemma {:induction false} AskManyCycles<T>(f: FakeLlm<T>, k: nat)
    requires Valid(f)
    ensures var n := |f.responses|;
            forall j :: 0 <= j < k ==> AskMany(f, k).0[j] == f.responses[(f.index + j) % n]
    ensures AskMany(f, k).1.index == (f.index + k) % |f.responses|
    decreases k
  {
    AskManyEndsAt(f, k);
    var n := |f.responses|;
    var i := f.index;
    if k > 0 {
      var next := AskTool<T, (), (), (), ()>(f, (), None, None, None).1;
      var c := next.index;
      AskManyCycles(next, k - 1);
      var outs := AskMany(f, k).0;
      var later := AskMany(next, k - 1).0;
      assert outs == [f.responses[i]] + later;
      forall j | 0 <= j < k
        ensures outs[j] == f.responses[(i + j) % n]
      {
        if j == 0 {
          DivModUnique(i, n, 0, i);
        } else {
          assert outs[j] == later[j - 1];
          StepIndex(n, i, c, j - 1);
          assert i + 1 + (j - 1) == i + j;
        }
      }
    }
  }

  /** Starting fresh, the `j`-th call returns reply `j mod n`. */
  lemma FreshCycles<T>(responses: seq<T>, k: nat, j: nat)
    requires |responses| > 0 && j < k
    ensures AskMany(New(responses), k).0[j] == responses[j % |responses|]
  {
    AskManyCycles(New(responses), k);
  }

  // ---------------------------------------------------------------------------
  // The module's instance

  /** One scripted assistant message with its single tool call. */
  datatype Reply = Reply(content: string, callId: string, toolName: string, arguments: string)

  const Hello0 := Reply(
    "I'll help you create a file named 'hello1.txt' with the content 'hello1' and save it.",
    "call_1", "str_replace_editor",
    "{\"command\": \"create\", \"path\": \"hello1.txt\", \"file_text\": \"hello1\"}")

  const Hello1 := Reply(
    "I need to use the absolute path. Let me create the file with the correct path.",
    "call_2", "str_replace_editor",
    "{\"command\": \"create\", \"path\": \"/mnt/e/Development/AgentAI/OpenManus/workspace/hello1.txt\", \"file_text\": \"hello1\"}")

  const Hello2 := Reply(
    "文件已成功创建！我在 `/mnt/e/Development/AgentAI/OpenManus/workspace/hello1.txt` 中创建了文件，内容为 'hello1'。",
    "call_3", "terminate",
    "{\"status\": \"success\"}")

  /** `FakeLLMInstance`. */
  const Instance := New([Hello0, Hello1, Hello2])

  /**
   * The instance asks for the file to be created twice and then terminates, and
   * after those three calls it is back where it started.
   */
  lemma InstanceScript()
    ensures AskMany(Instance, 3).0 == [Hello0, Hello1, Hello2]
    ensures AskMany(Instance, 3).1 == Instance
    ensures AskMany(Instance, 3).0[2].toolName == "terminate"
  {
    var replies := [Hello0, Hello1, Hello2];
    AskManyCycles(Instance, 3);
    assert AskMany(Instance, 3).0[0] == replies[0];
    assert AskMany(Instance, 3).0[1] == replies[1];
    assert AskMany(Instance, 3).0[2] == replies[2];
  }

  /** Every third call of the instance is the `terminate` call. */
  lemma InstanceTerminatesEveryThirdCall(k: nat, j: nat)
    requires j < k
    ensures AskMany(Instance, k).0[j].toolName == "terminate" <==> j % 3 == 2
  {
    FreshCycles([Hello0, Hello1, Hello2], k, j);
  }
}

=== FILE: IoParseLog.dfy ===
/**
 * `parse_log` of test_perf/io/test_sandbox_io_parselog.py: a line-driven state
 * machine that assembles one record per "Testing write size" block of an I/O
 * benchmark log, keeping only the blocks in which all four timings were seen.
 *
 * Lines are given as a sequence (reading the file is left out). The timings are
 * kept as the captured digit text; the `float()` conversion is not modelled.
 */
module IoParseLog {
  import opened Outcomes

  // ---------------------------------------------------------------------------
  // The five regular expressions

  /** The four timing keys, in the order `pattern_times` lists them. */
  datatype TimeKey = MkdirTime | TarPrepTime | PutArchiveTime | TotalTime

  const PatternOrder: seq<TimeKey> := [MkdirTime, TarPrepTime, PutArchiveTime, TotalTime]

  /** `pattern_size`, or the entry of `pattern_times` for one key. */
  datatype Pattern = SizePattern | TimePattern(key: TimeKey)

  const SizeMarker := "Testing write size "

  /** The literal text each pattern starts with; `total_time` is read from `total_write_time=`. */
  function Literal(pat: Pattern): string {
    match pat
    case SizePattern => SizeMarker
    case TimePattern(MkdirTime) => "mkdir_time="
    case TimePattern(TarPrepTime) => "tar_prep_time="
    case TimePattern(PutArchiveTime) => "put_archive_time="
    case TimePattern(TotalTime) => "total_write_time="
  }

  /** What follows the captured text in a match: nothing more for sizes, an `s` for timings. */
  function Trailer(pat: Pattern): string {
    if pat.SizePattern? then "" else "s"
  }

  /** `[\d.]`, with `\d` restricted to the ASCII digits. */
  predicate IsNumChar(c: char) {
    '0' <= c <= '9' || c == '.'
  }

  /** Text `[\d.]+` matches in full. */
  predicate IsNumber(t: string) {
    |t| > 0 && forall i :: 0 <= i < |t| ==> IsNumChar(t[i])
  }

  predicate IsUnit(c: char) {
    c == 'K' || c == 'M' || c == 'G'
  }

  /** `f"{size_val}{size_unit}"` for a match of `pattern_size`: a number, then KB, MB or GB. */
  predicate IsSizeText(t: string) {
    |t| >= 3 && IsNumber(t[..|t| - 2]) && IsUnit(t[|t| - 2]) && t[|t| - 1] == 'B'
  }

  /** The text a pattern yields: the size text for `pattern_size`, group 1 for the timings. */
  predicate Captures(pat: Pattern, t: string) {
    if pat.SizePattern? then IsSizeText(t) else IsNumber(t)
  }

  /** Length of the longest prefix of `[\d.]` characters. */
  function NumRun(s: string): (n: nat)
    ensures n <= |s|
    ensures forall i :: 0 <= i < n ==> IsNumChar(s[i])
    ensures n == |s| || !IsNumChar(s[n])
    decreases |s|
  {
    if |s| > 0 && IsNumChar(s[0]) then 1 + NumRun(s[1..]) else 0
  }

  lemma {:induction false} NumRunOfNumber(num: string, rest: string)
    requires forall i :: 0 <= i < |num| ==> IsNumChar(num[i])
    requires |rest| > 0 && !IsNumChar(rest[0])
    ensures NumRun(num + rest) == |num|
    decreases |num|
  {
    if |num| > 0 {
      assert (num + rest)[1..] == num[1..] + rest;
      NumRunOfNumber(num[1..], rest);
    } else {
      assert num + rest == rest;
    }
  }

  /**
   * What the pattern matches right after its literal: a greedy `[\d.]+`, then
   * the unit and `B` for sizes or an `s` for timings. The run cannot give back
   * characters to reach what follows it, as neither a unit letter nor `s` is in
   * `[\d.]`, so a match exists exactly when the longest run is non-empty and
   * the right characters follow it.
   */
  function Capture(pat: Pattern, s: string): (r: Option<string>)
    ensures r.Some? ==> Captures(pat, r.value)
    ensures r.Some? ==> |r.value| + |Trailer(pat)| <= |s| && s[..|r.value| + |Trailer(pat)|] == r.value + Trailer(pat)
  {
    var n := NumRun(s);
    if pat.SizePattern? then
      if n > 0 && n + 1 < |s| && IsUnit(s[n]) && s[n + 1] == 'B' then
        assert s[..n + 2][..n] == s[..n];
        Some(s[..n + 2])
      else None
    else
      if n > 0 && n < |s| && s[n] == 's' then
        assert s[..n + 1] == s[..n] + "s";
        Some(s[..n])
      else None
  }

  /** The pattern tried at the start of `s`: its literal, then what `Capture` accepts. */
  function MatchAt(pat: Pattern, s: string): (r: Option<string>)
    ensures r.Some? ==> Captures(pat, r.value)
    ensures r.Some? ==>
      var n := |Literal(pat)| + |r.value| + |Trailer(pat)|;
      n <= |s| && s[..n] == Literal(pat) + r.value + Trailer(pat)
  {
    var lit := Literal(pat);
    if |lit| <= |s| && s[..|lit|] == lit then
      var r := Capture(pat, s[|lit|..]);
      if r.Some? then
        PrefixAfter(s, lit, r.value, Trailer(pat));
        r
      else r
    else None
  }

  /** A prefix of `s` that starts with `lit` and continues with a prefix of what follows `lit`. */
  lemma PrefixAfter<T>(s: seq<T>, lit: seq<T>, a: seq<T>, b: seq<T>)
    requires |lit| <= |s| && s[..|lit|] == lit
    requires |a| + |b| <= |s| - |lit| && s[|lit|..][..|a| + |b|] == a + b
    ensures |lit| + |a| + |b| <= |s| && s[..|lit| + |a| + |b|] == lit + a + b
  {
    assert s[..|lit| + |a| + |b|] == s[..|lit|] + s[|lit|..][..|a| + |b|];
  }

  lemma CaptureOfNumber(pat: Pattern, t: string, rest: string)
    requires Captures(pat, t)
    ensures Capture(pat, t + Trailer(pat) + rest) == Some(t)
  {
    var s := t + Trailer(pat) + rest;
    if pat.SizePattern? {
      var num := t[..|t| - 2];
      assert s == num + (t[|t| - 2..] + rest);
      NumRunOfNumber(num, t[|t| - 2..] + rest);
      assert s[..|t|] == t;
    } else {
      assert s == t + ("s" + rest);
      NumRunOfNumber(t, "s" + rest);
      assert s[..|t|] == t;
    }
  }

  /** A pattern's literal, a text it captures, and its trailer are matched back to that text. */
  lemma MatchAtOf(pat: Pattern, t: string, rest: string)
    requires Captures(pat, t)
    ensures MatchAt(pat, Literal(pat) + t + Trailer(pat) + rest) == Some(t)
  {
    var lit := Literal(pat);
    var s := lit + t + Trailer(pat) + rest;
    assert s[..|lit|] == lit;
    assert s[|lit|..] == t + Trailer(pat) + rest;
    CaptureOfNumber(pat, t, rest);
  }

  /** The first index at or after `from` that holds a value. */
  function FirstSome<T>(xs: seq<Option<T>>, from: nat): (r: Option<nat>)
    requires from <= |xs|
    ensures r.Some? ==> from <= r.value < |xs| && xs[r.value].Some?
    decreases |xs| - from
  {
    if from == |xs| then None
    else if xs[from].Some? then Some(from)
    else FirstSome(xs, from + 1)
  }

  lemma {:induction false} FirstSomeIsFirst<T>(xs: seq<Option<T>>, from: nat)
    requires from <= |xs|
    ensures FirstSome(xs, from).None? ==> forall j :: from <= j < |xs| ==> xs[j].None?
    ensures FirstSome(xs, from).Some? ==> forall j :: from <= j < FirstSome(xs, from).value ==> xs[j].None?
    decreases |xs| - from
  {
    if from < |xs| && xs[from].None? {
      FirstSomeIsFirst(xs, from + 1);
    }
  }

  /** `r` is the value of the leftmost attempt that succeeded, or None when all failed. */
  ghost predicate IsLeftmost<T>(xs: seq<Option<T>>, r: Option<T>) {
    && (r.None? <==> forall j :: 0 <= j < |xs| ==> xs[j].None?)
    && (r.Some? ==> exists i :: 0 <= i < |xs| && xs[i] == r && forall j :: 0 <= j < i ==> xs[j].None?)
  }

  /** The value of the first successful attempt, trying them in order. */
  function Leftmost<T>(xs: seq<Option<T>>): (r: Option<T>)
    ensures r.Some? ==> r in xs
  {
    match FirstSome(xs, 0)
    case None => None
    case Some(i) => xs[i]
  }

  lemma LeftmostIsLeftmost<T>(xs: seq<Option<T>>)
    ensures IsLeftmost(xs, Leftmost(xs))
  {
    FirstSomeIsFirst(xs, 0);
  }

  /** The pattern tried at every position of `s`, from the first to just past the last. */
  function Attempts(pat: Pattern, s: string): (ms: seq<Option<string>>)
    ensures |ms| == |s| + 1
  {
    seq(|s| + 1, j requires 0 <= j <= |s| => MatchAt(pat, s[j..]))
  }

  /** `ptn.search(line)`: what the leftmost match yields, if there is a match. */
  function Search(pat: Pattern, s: string): (r: Option<string>)
    ensures r.Some? ==> Captures(pat, r.value)
  {
    Leftmost(Attempts(pat, s))
  }

  /** The search fails exactly when no position matches, and otherwise reports the leftmost match. */
  lemma SearchIsLeftmost(pat: Pattern, s: string)
    ensures IsLeftmost(Attempts(pat, s), Search(pat, s))
  {
    LeftmostIsLeftmost(Attempts(pat, s));
  }

  /** A line is a size line when `pattern_size` matches somewhere in it. */
  predicate IsSizeLine(line: string) {
    Search(SizePattern, line).Some?
  }

  /** Each timing pattern searched in `line`, in the listed order, tagged with its key. */
  function TimeSearches(line: string): (hs: seq<Option<(TimeKey, string)>>)
    ensures |hs| == |PatternOrder|
  {
    seq(|PatternOrder|, i requires 0 <= i < |PatternOrder| =>
      match Search(TimePattern(PatternOrder[i]), line)
      case None => None
      case Some(v) => Some((PatternOrder[i], v)))
  }

  /**
   * The loop over `pattern_times` with its `break`: the first key, in the listed
   * order, whose pattern matches the line, and the value it yields.
   */
  function FirstHit(line: string): (r: Option<(TimeKey, string)>)
    ensures r.Some? ==> Search(TimePattern(r.value.0), line) == Some(r.value.1)
  {
    Leftmost(TimeSearches(line))
  }

  /** No key hits exactly when none of the patterns matches; a hit is the first key, in order, that matches. */
  lemma FirstHitIsFirst(line: string)
    ensures IsLeftmost(TimeSearches(line), FirstHit(line))
  {
    LeftmostIsLeftmost(TimeSearches(line));
  }

  // ---------------------------------------------------------------------------
  // What the loop sees of a line

  /**
   * A line as the loop body reads it: a size line (the timing patterns are not
   * tried on it), or another line with the first timing hit, if any.
   */
  datatype LineKind = SizeLine(size: string) | OtherLine(hit: Option<(TimeKey, string)>)

  /** Every text a line kind carries is one its pattern captures. */
  predicate WellFormedKind(kind: LineKind) {
    match kind
    case SizeLine(size) => IsSizeText(size)
    case OtherLine(hit) => hit.Some? ==> IsNumber(hit.value.1)
  }

  function Classify(line: string): (kind: LineKind)
    ensures kind.SizeLine? <==> IsSizeLine(line)
    ensures kind.SizeLine? ==> Search(SizePattern, line) == Some(kind.size)
    ensures kind.OtherLine? ==> kind.hit == FirstHit(line)
    ensures WellFormedKind(kind)
  {
    match Search(SizePattern, line)
    case Some(size) => SizeLine(size)
    case None => OtherLine(FirstHit(line))
  }

  /** `f` applied to every element, in order. */
  function Map<A, B>(f: A -> B, xs: seq<A>): (ys: seq<B>)
    ensures |ys| == |xs| && forall i :: 0 <= i < |xs| ==> ys[i] == f(xs[i])
  {
    seq(|xs|, i requires 0 <= i < |xs| => f(xs[i]))
  }

  lemma MapOfConcat<A, B>(f: A -> B, a: seq<A>, b: seq<A>)
    ensures Map(f, a + b) == Map(f, a) + Map(f, b)
  {
    assert forall i :: 0 <= i < |a + b| ==> Map(f, a + b)[i] == (Map(f, a) + Map(f, b))[i];
  }

  /** Every line of a log, classified. */
  function Kinds(lines: seq<string>): (ks: seq<LineKind>)
    ensures |ks| == |lines|
  {
    Map(Classify, lines)
  }

  // ---------------------------------------------------------------------------
  // Records

  /** The dictionary `current`: the size text once a size line has started it, and the timings seen since. */
  datatype Partial = Partial(fileSize: Option<string>, times: map<TimeKey, string>)

  const Empty := Partial(None, map[])

  /** One emitted row, with all five keys. */
  datatype Record = Record(fileSize: string, mkdirTime: string, tarPrepTime: string, putArchiveTime: string, totalTime: string)

  /** The check in `finalize`: all five keys are present. */
  predicate Complete(cur: Partial) {
    && cur.fileSize.Some?
    && MkdirTime in cur.times
    && TarPrepTime in cur.times
    && PutArchiveTime in cur.times
    && TotalTime in cur.times
  }

  /** Every field holds what the patterns capture. */
  predicate WellFormed(rec: Record) {
    && IsSizeText(rec.fileSize)
    && IsNumber(rec.mkdirTime)
    && IsNumber(rec.tarPrepTime)
    && IsNumber(rec.putArchiveTime)
    && IsNumber(rec.totalTime)
  }

  predicate WellFormedPartial(cur: Partial) {
    && (cur.fileSize.Some? ==> IsSizeText(cur.fileSize.value))
    && forall k :: k in cur.times ==> IsNumber(cur.times[k])
  }

  predicate AllWellFormed(rs: seq<Record>) {
    forall i :: 0 <= i < |rs| ==> WellFormed(rs[i])
  }

  /** What `finalize` appends: the record of a complete `current`, else nothing. */
  function Emit(cur: Partial): (out: seq<Record>)
    ensures |out| <= 1
    ensures |out| == 1 <==> Complete(cur)
    ensures |out| == 1 ==>
      && Some(out[0].fileSize) == cur.fileSize
      && out[0].mkdirTime == cur.times[MkdirTime]
      && out[0].tarPrepTime == cur.times[TarPrepTime]
      && out[0].putArchiveTime == cur.times[PutArchiveTime]
      && out[0].totalTime == cur.times[TotalTime]
    ensures WellFormedPartial(cur) ==> AllWellFormed(out)
  {
    if Complete(cur) then
      [Record(cur.fileSize.value, cur.times[MkdirTime], cur.times[TarPrepTime],
              cur.times[PutArchiveTime], cur.times[TotalTime])]
    else []
  }

  /**
   * A line that is not a size line: the first matching timing pattern stores its
   * value under its key, replacing any earlier value; without a hit nothing changes.
   */
  function ApplyTimes(cur: Partial, hit: Option<(TimeKey, string)>): (r: Partial)
    ensures r.fileSize == cur.fileSize
    ensures hit.None? ==> r == cur
    ensures hit.Some? ==> r.times == cur.times[hit.value.0 := hit.value.1]
    ensures WellFormedPartial(cur) && (hit.Some? ==> IsNumber(hit.value.1)) ==> WellFormedPartial(r)
  {
    match hit
    case None => cur
    case Some((k, v)) => cur.(times := cur.times[k := v])
  }

  /** The number of size lines. */
  function SizeLineCount(kinds: seq<LineKind>): nat
    decreases |kinds|
  {
    if |kinds| == 0 then 0
    else (if kinds[0].SizeLine? then 1 else 0) + SizeLineCount(kinds[1..])
  }

  /**
   * The `for line in f` loop from some point on: `results` so far, `current`,
   * and the lines still to read. A size line finalizes `current` and starts a
   * new one holding only the size; any other line goes through `ApplyTimes`.
   * Each record emitted is paid for by a size line, and once a size line has
   * been read `current` always holds a size.
   */
  function Run(results: seq<Record>, cur: Partial, kinds: seq<LineKind>): (r: (seq<Record>, Partial))
    ensures |r.0| + (if r.1.fileSize.Some? then 1 else 0)
            <= |results| + (if cur.fileSize.Some? then 1 else 0) + SizeLineCount(kinds)
    ensures cur.fileSize.Some? ==> r.1.fileSize.Some?
    ensures r.1.fileSize.None? ==> r.0 == results && SizeLineCount(kinds) == 0
    decreases |kinds|
  {
    if |kinds| == 0 then (results, cur)
    else
      match kinds[0]
      case SizeLine(size) => Run(results + Emit(cur), Partial(Some(size), map[]), kinds[1..])
      case OtherLine(hit) => Run(results, ApplyTimes(cur, hit), kinds[1..])
  }

  /** Every record emitted, and `current` at every point, holds only captured texts. */
  lemma {:induction false} RunKeepsWellFormed(results: seq<Record>, cur: Partial, kinds: seq<LineKind>)
    requires AllWellFormed(results) && WellFormedPartial(cur)
    requires forall i :: 0 <= i < |kinds| ==> WellFormedKind(kinds[i])
    ensures AllWellFormed(Run(results, cur, kinds).0) && WellFormedPartial(Run(results, cur, kinds).1)
    decreases |kinds|
  {
    if |kinds| > 0 {
      assert WellFormedKind(kinds[0]);
      assert forall i :: 0 <= i < |kinds[1..]| ==> WellFormedKind(kinds[1..][i]) by {
        assert forall i :: 0 <= i < |kinds[1..]| ==> kinds[1..][i] == kinds[i + 1];
      }
      match kinds[0]
      case SizeLine(size) =>
        assert AllWellFormed(results + Emit(cur)) by {
          assert forall i :: 0 <= i < |results + Emit(cur)| ==>
            (results + Emit(cur))[i] == if i < |results| then results[i] else Emit(cur)[i - |results|];
        }
        RunKeepsWellFormed(results + Emit(cur), Partial(Some(size), map[]), kinds[1..]);
      case OtherLine(hit) =>
        RunKeepsWellFormed(results, ApplyTimes(cur, hit), kinds[1..]);
    }
  }

  /**
   * `parse_log`: the records of the complete blocks, in log order. There are
   * at most as many as there are size lines, and every field of every record
   * holds what its pattern captured.
   */
  function ParseLog(lines: seq<string>): (out: seq<Record>)
    ensures |out| <= SizeLineCount(Kinds(lines))
    ensures AllWellFormed(out)
  {
    var kinds := Kinds(lines);
    RunKeepsWellFormed([], Empty, kinds);
    var (results, cur) := Run([], Empty, kinds);
    assert AllWellFormed(results + Emit(cur)) by {
      assert forall i :: 0 <= i < |results + Emit(cur)| ==>
        (results + Emit(cur))[i] == if i < |results| then results[i] else Emit(cur)[i - |results|];
    }
    results + Emit(cur)
  }

  // ---------------------------------------------------------------------------
  // The same result, block by block

  /** The index of the first size line, or the length when there is none. */
  function FirstSize(kinds: seq<LineKind>): (j: nat)
    ensures j <= |kinds|
    ensures forall i :: 0 <= i < j ==> kinds[i].OtherLine?
    ensures j < |kinds| ==> kinds[j].SizeLine?
    decreases |kinds|
  {
    if |kinds| == 0 || kinds[0].SizeLine? then 0 else 1 + FirstSize(kinds[1..])
  }

  /** Applying the timing lines of a block, one after another. */
  function FillTimes(cur: Partial, kinds: seq<LineKind>): Partial
    requires forall i :: 0 <= i < |kinds| ==> kinds[i].OtherLine?
    decreases |kinds|
  {
    if |kinds| == 0 then cur else FillTimes(ApplyTimes(cur, kinds[0].hit), kinds[1..])
  }

  /** The records of a log that starts at a size line: each size line, then the lines up to the next one. */
  function RecordsFrom(kinds: seq<LineKind>): seq<Record>
    requires |kinds| == 0 || kinds[0].SizeLine?
    decreases |kinds|
  {
    if |kinds| == 0 then []
    else
      var rest := kinds[1..];
      var k := FirstSize(rest);
      Emit(FillTimes(Partial(Some(kinds[0].size), map[]), rest[..k])) + RecordsFrom(rest[k..])
  }

  /** Filling timings never supplies a size, so a block without one is never emitted. */
  lemma {:induction false} FillTimesKeepsSize(cur: Partial, kinds: seq<LineKind>)
    requires forall i :: 0 <= i < |kinds| ==> kinds[i].OtherLine?
    ensures FillTimes(cur, kinds).fileSize == cur.fileSize
    decreases |kinds|
  {
    if |kinds| > 0 {
      FillTimesKeepsSize(ApplyTimes(cur, kinds[0].hit), kinds[1..]);
    }
  }

  lemma {:induction false} RunByBlocks(results: seq<Record>, cur: Partial, kinds: seq<LineKind>)
    ensures var (rs, c) := Run(results, cur, kinds);
            var j := FirstSize(kinds);
            rs + Emit(c) == results + Emit(FillTimes(cur, kinds[..j])) + RecordsFrom(kinds[j..])
    decreases |kinds|
  {
    var j := FirstSize(kinds);
    if |kinds| == 0 {
    } else if kinds[0].SizeLine? {
      var rest := kinds[1..];
      var k := FirstSize(rest);
      var start := Partial(Some(kinds[0].size), map[]);
      assert Run(results, cur, kinds) == Run(results + Emit(cur), start, rest);
      RunByBlocks(results + Emit(cur), start, rest);
      assert j == 0 && kinds[..j] == [] && kinds[j..] == kinds;
      assert FillTimes(cur, []) == cur;
      var later := RecordsFrom(rest[k..]);
      assert RecordsFrom(kinds) == Emit(FillTimes(start, rest[..k])) + later;
      Regroup(results, Emit(cur), Emit(FillTimes(start, rest[..k])), later);
    } else {
      var rest := kinds[1..];
      var k := FirstSize(rest);
      assert j == k + 1;
      var next := ApplyTimes(cur, kinds[0].hit);
      assert Run(results, cur, kinds) == Run(results, next, rest);
      RunByBlocks(results, next, rest);
      SliceAfterHead(kinds, j);
      assert FillTimes(cur, kinds[..j]) == FillTimes(next, rest[..k]);
    }
  }

  lemma Regroup<T>(a: seq<T>, b: seq<T>, c: seq<T>, d: seq<T>)
    ensures (a + b) + c + d == a + b + (c + d)
  {
  }

  lemma SliceAfterHead<T>(xs: seq<T>, j: nat)
    requires 1 <= j <= |xs|
    ensures xs[..j][0] == xs[0] && xs[..j][1..] == xs[1..][..j - 1]
    ensures xs[j..] == xs[1..][j - 1..]
  {
  }

  /**
   * `parse_log` equals the block-by-block reading: lines before the first size
   * line contribute nothing, and each size line yields the record of its own
   * block, in log order, when that block is complete.
   */
  lemma ParseLogByBlocks(lines: seq<string>)
    ensures var kinds := Kinds(lines);
            ParseLog(lines) == RecordsFrom(kinds[FirstSize(kinds)..])
  {
    var kinds := Kinds(lines);
    var j := FirstSize(kinds);
    RunByBlocks([], Empty, kinds);
    FillTimesKeepsSize(Empty, kinds[..j]);
  }

  /** Timing lines before the first size line are dropped. */
  lemma PreambleIsDropped(preamble: seq<string>, log: seq<string>)
    requires forall i :: 0 <= i < |preamble| ==> !IsSizeLine(preamble[i])
    requires |log| == 0 || IsSizeLine(log[0])
    ensures ParseLog(preamble + log) == ParseLog(log)
  {
    var pre := Kinds(preamble);
    var rest := Kinds(log);
    MapOfConcat(Classify, preamble, log);
    PreambleFirstSize(pre, rest);
    ParseLogByBlocks(preamble + log);
    ParseLogByBlocks(log);
    assert (pre + rest)[|pre|..] == rest;
  }

  lemma {:induction false} PreambleFirstSize(pre: seq<LineKind>, rest: seq<LineKind>)
    requires forall i :: 0 <= i < |pre| ==> pre[i].OtherLine?
    requires |rest| == 0 || rest[0].SizeLine?
    ensures FirstSize(pre + rest) == |pre|
    ensures FirstSize(rest) == 0
    decreases |pre|
  {
    if |pre| > 0 {
      assert (pre + rest)[1..] == pre[1..] + rest;
      PreambleFirstSize(pre[1..], rest);
    } else {
      assert pre + rest == rest;
    }
  }

  // ---------------------------------------------------------------------------
  // Overwriting within a block

  /** A line whose first matching timing pattern is the one for `k`. */
  predicate Hits(kind: LineKind, k: TimeKey) {
    kind.OtherLine? && kind.hit.Some? && kind.hit.value.0 == k
  }

  lemma {:induction false} FillTimesKeepsKey(cur: Partial, kinds: seq<LineKind>, k: TimeKey)
    requires forall i :: 0 <= i < |kinds| ==> kinds[i].OtherLine? && !Hits(kinds[i], k)
    ensures k in cur.times ==> k in FillTimes(cur, kinds).times && FillTimes(cur, kinds).times[k] == cur.times[k]
    ensures k !in cur.times ==> k !in FillTimes(cur, kinds).times
    decreases |kinds|
  {
    if |kinds| > 0 {
      FillTimesKeepsKey(ApplyTimes(cur, kinds[0].hit), kinds[1..], k);
    }
  }

  /** Within a block, a timing holds the value from the last line whose first matching pattern is its own. */
  lemma {:induction false} LastValueWins(cur: Partial, kinds: seq<LineKind>, i: nat, k: TimeKey)
    requires forall j :: 0 <= j < |kinds| ==> kinds[j].OtherLine?
    requires i < |kinds| && Hits(kinds[i], k)
    requires forall j :: i < j < |kinds| ==> !Hits(kinds[j], k)
    ensures k in FillTimes(cur, kinds).times
    ensures FillTimes(cur, kinds).times[k] == kinds[i].hit.value.1
    decreases |kinds|
  {
    var next := ApplyTimes(cur, kinds[0].hit);
    var rest := kinds[1..];
    assert forall j :: 0 <= j < |rest| ==> rest[j] == kinds[j + 1];
    if i == 0 {
      FillTimesKeepsKey(next, rest, k);
    } else {
      LastValueWins(next, rest, i - 1, k);
    }
  }

  // ---------------------------------------------------------------------------
  // Printing a log and reading it back

  /**
   * The line that opens a block: the size marker, the size text, then any tail
   * (the benchmark writes " (<n> bytes)" there, which the parser never reads).
   */
  function SizeHeader(size: string, tail: string): string {
    SizeMarker + size + tail
  }

  /** The line that reports one timing: its literal, the value, then `s`. */
  function TimeLine(k: TimeKey, v: string): string {
    Literal(TimePattern(k)) + v + "s"
  }

  /** The lines of one record: its size header with `tail`, then one line per timing in the listed order. */
  function RecordLines(r: Record, tail: string): seq<string> {
    [SizeHeader(r.fileSize, tail),
     TimeLine(MkdirTime, r.mkdirTime),
     TimeLine(TarPrepTime, r.tarPrepTime),
     TimeLine(PutArchiveTime, r.putArchiveTime),
     TimeLine(TotalTime, r.totalTime)]
  }

  /** A log holding the records one block after another, each size header with its own tail. */
  function RenderLog(rs: seq<Record>, tails: seq<string>): seq<string>
    requires |tails| == |rs|
    decreases |rs|
  {
    if |rs| == 0 then [] else RecordLines(rs[0], tails[0]) + RenderLog(rs[1..], tails[1..])
  }

  /** The position of a key in the listed order. */
  function KeyIndex(k: TimeKey): (i: nat)
    ensures i < |PatternOrder| && PatternOrder[i] == k
  {
    match k
    case MkdirTime => 0
    case TarPrepTime => 1
    case PutArchiveTime => 2
    case TotalTime => 3
  }

  lemma KeyIndexOfOrder(j: nat)
    requires j < |PatternOrder|
    ensures KeyIndex(PatternOrder[j]) == j
  {
  }

  /** A match needs the pattern's literal in full: one character that differs from it rules the match out. */
  lemma NoMatchIfMismatch(pat: Pattern, s: string, i: nat)
    requires i < |Literal(pat)|
    requires i >= |s| || s[i] != Literal(pat)[i]
    ensures MatchAt(pat, s).None?
  {
  }

  lemma LeftmostAt<T>(xs: seq<Option<T>>, i: nat)
    requires i < |xs| && xs[i].Some?
    requires forall j :: 0 <= j < i ==> xs[j].None?
    ensures Leftmost(xs) == xs[i]
  {
    LeftmostIsLeftmost(xs);
  }

  lemma LeftmostNone<T>(xs: seq<Option<T>>)
    requires forall j :: 0 <= j < |xs| ==> xs[j].None?
    ensures Leftmost(xs).None?
  {
    LeftmostIsLeftmost(xs);
  }

  /** A line that opens with a match of the pattern: the search reports that match. */
  lemma SearchAtStart(pat: Pattern, t: string, rest: string)
    requires Captures(pat, t)
    ensures Search(pat, Literal(pat) + t + Trailer(pat) + rest) == Some(t)
  {
    var s := Literal(pat) + t + Trailer(pat) + rest;
    var xs := Attempts(pat, s);
    assert s[0..] == s;
    MatchAtOf(pat, t, rest);
    assert xs[0] == Some(t);
    LeftmostAt(xs, 0);
  }

  /** No timing literal holds a 'T', and each holds '=' only as its last character. */
  lemma LiteralChars(k: TimeKey)
    ensures var lit := Literal(TimePattern(k));
            |lit| > 0 && forall x :: 0 <= x < |lit| ==> lit[x] != 'T' && (lit[x] == '=' <==> x == |lit| - 1)
  {
    match k
    case MkdirTime =>
    case TarPrepTime =>
    case PutArchiveTime =>
    case TotalTime =>
  }

  /** In a timing line, 'T' does not occur and '=' occurs only where the literal ends. */
  lemma TimeLineChars(k: TimeKey, v: string)
    requires IsNumber(v)
    ensures var line := TimeLine(k, v);
            forall x :: 0 <= x < |line| ==>
              line[x] != 'T' && (line[x] == '=' <==> x == |Literal(TimePattern(k))| - 1)
  {
    var lit := Literal(TimePattern(k));
    var line := TimeLine(k, v);
    LiteralChars(k);
    forall x | 0 <= x < |line|
      ensures line[x] != 'T' && (line[x] == '=' <==> x == |lit| - 1)
    {
      if x < |lit| {
        assert line[x] == lit[x];
      } else if x < |lit| + |v| {
        assert line[x] == v[x - |lit|];
      } else {
        assert line[x] == 's';
      }
    }
  }

  /**
   * An earlier key's literal is no longer than a later one's, and where their
   * '=' signs line up, their first characters differ.
   */
  lemma EarlierLiteralDisagrees(k2: TimeKey, k: TimeKey)
    requires KeyIndex(k2) < KeyIndex(k)
    ensures var lit2 := Literal(TimePattern(k2));
            var lit := Literal(TimePattern(k));
            |lit2| <= |lit| && lit[|lit| - |lit2|] != lit2[0]
  {
  }

  /** A timing line matches no pattern listed before its own key. */
  lemma NoEarlierMatch(k2: TimeKey, k: TimeKey, v: string)
    requires IsNumber(v) && KeyIndex(k2) < KeyIndex(k)
    ensures Search(TimePattern(k2), TimeLine(k, v)).None?
  {
    var pat := TimePattern(k2);
    var lit2 := Literal(pat);
    var lit := Literal(TimePattern(k));
    var line := TimeLine(k, v);
    TimeLineChars(k, v);
    LiteralChars(k2);
    EarlierLiteralDisagrees(k2, k);
    var xs := Attempts(pat, line);
    forall j | 0 <= j < |xs|
      ensures xs[j].None?
    {
      if j == |lit| - |lit2| {
        assert line[j] == lit[j];
        NoMatchIfMismatch(pat, line[j..], 0);
      } else {
        NoMatchIfMismatch(pat, line[j..], |lit2| - 1);
      }
    }
    LeftmostNone(xs);
  }

  /** A timing line is not a size line. */
  lemma NoSizeInTimeLine(k: TimeKey, v: string)
    requires IsNumber(v)
    ensures Search(SizePattern, TimeLine(k, v)).None?
  {
    var line := TimeLine(k, v);
    TimeLineChars(k, v);
    var xs := Attempts(SizePattern, line);
    forall j | 0 <= j < |xs|
      ensures xs[j].None?
    {
      NoMatchIfMismatch(SizePattern, line[j..], 0);
    }
    LeftmostNone(xs);
  }

  /** A printed timing line is read as a hit of its own key, carrying its own value. */
  lemma ClassifyTimeLine(k: TimeKey, v: string)
    requires IsNumber(v)
    ensures Classify(TimeLine(k, v)) == OtherLine(Some((k, v)))
  {
    var line := TimeLine(k, v);
    NoSizeInTimeLine(k, v);
    var hs := TimeSearches(line);
    var i := KeyIndex(k);
    assert line == Literal(TimePattern(k)) + v + Trailer(TimePattern(k)) + "";
    SearchAtStart(TimePattern(k), v, "");
    assert hs[i] == Some((k, v));
    forall j | 0 <= j < i
      ensures hs[j].None?
    {
      KeyIndexOfOrder(j);
      NoEarlierMatch(PatternOrder[j], k, v);
    }
    LeftmostAt(hs, i);
  }

  /** A printed size line is read as a size line carrying its own size text, whatever follows it. */
  lemma ClassifySizeHeader(size: string, tail: string)
    requires IsSizeText(size)
    ensures Classify(SizeHeader(size, tail)) == SizeLine(size)
  {
    assert SizeHeader(size, tail) == Literal(SizePattern) + size + Trailer(SizePattern) + tail;
    SearchAtStart(SizePattern, size, tail);
  }

  /** How the loop sees the four timing lines of one printed record. */
  function TimingKinds(r: Record): seq<LineKind> {
    [OtherLine(Some((MkdirTime, r.mkdirTime))),
     OtherLine(Some((TarPrepTime, r.tarPrepTime))),
     OtherLine(Some((PutArchiveTime, r.putArchiveTime))),
     OtherLine(Some((TotalTime, r.totalTime)))]
  }

  /** How the loop sees the lines of one printed record. */
  function RecordKinds(r: Record): seq<LineKind> {
    [SizeLine(r.fileSize),
     OtherLine(Some((MkdirTime, r.mkdirTime))),
     OtherLine(Some((TarPrepTime, r.tarPrepTime))),
     OtherLine(Some((PutArchiveTime, r.putArchiveTime))),
     OtherLine(Some((TotalTime, r.totalTime)))]
  }

  /** How the loop sees a printed log. */
  function RenderKinds(rs: seq<Record>): (ks: seq<LineKind>)
    ensures |rs| > 0 ==> |ks| > 0 && ks[0] == SizeLine(rs[0].fileSize)
    decreases |rs|
  {
    if |rs| == 0 then [] else RecordKinds(rs[0]) + RenderKinds(rs[1..])
  }

  /** A printed log, seen as its first block followed by the rest. */
  lemma RenderKindsAsBlocks(rs: seq<Record>)
    requires |rs| > 0
    ensures RenderKinds(rs) == [SizeLine(rs[0].fileSize)] + (TimingKinds(rs[0]) + RenderKinds(rs[1..]))
  {
    RecordKindsSplit(rs[0]);
    ConsAssoc(SizeLine(rs[0].fileSize), TimingKinds(rs[0]), RenderKinds(rs[1..]));
  }

  lemma RecordKindsSplit(r: Record)
    ensures RecordKinds(r) == [SizeLine(r.fileSize)] + TimingKinds(r)
  {
  }

  lemma ConsAssoc<T>(x: T, a: seq<T>, b: seq<T>)
    ensures ([x] + a) + b == [x] + (a + b)
  {
  }

  lemma MapOfFive<A, B>(f: A -> B, a0: A, a1: A, a2: A, a3: A, a4: A)
    ensures Map(f, [a0, a1, a2, a3, a4]) == [f(a0), f(a1), f(a2), f(a3), f(a4)]
  {
  }

  lemma KindsOfRecordLines(r: Record, tail: string)
    requires WellFormed(r)
    ensures Kinds(RecordLines(r, tail)) == RecordKinds(r)
  {
    ClassifySizeHeader(r.fileSize, tail);
    ClassifyTimeLine(MkdirTime, r.mkdirTime);
    ClassifyTimeLine(TarPrepTime, r.tarPrepTime);
    ClassifyTimeLine(PutArchiveTime, r.putArchiveTime);
    ClassifyTimeLine(TotalTime, r.totalTime);
    var ls := RecordLines(r, tail);
    MapOfFive(Classify, ls[0], ls[1], ls[2], ls[3], ls[4]);
    assert ls == [ls[0], ls[1], ls[2], ls[3], ls[4]];
  }

  lemma {:induction false} KindsOfRenderLog(rs: seq<Record>, tails: seq<string>)
    requires AllWellFormed(rs) && |tails| == |rs|
    ensures Kinds(RenderLog(rs, tails)) == RenderKinds(rs)
    decreases |rs|
  {
    if |rs| > 0 {
      assert WellFormed(rs[0]);
      assert AllWellFormed(rs[1..]) by {
        assert forall i :: 0 <= i < |rs[1..]| ==> rs[1..][i] == rs[i + 1];
      }
      KindsOfRecordLines(rs[0], tails[0]);
      KindsOfRenderLog(rs[1..], tails[1..]);
      MapOfConcat(Classify, RecordLines(rs[0], tails[0]), RenderLog(rs[1..], tails[1..]));
    }
  }

  /** The four timing lines of a printed record complete its block with the record's own values. */
  lemma EmitOfRecordBlock(r: Record)
    ensures Emit(FillTimes(Partial(Some(r.fileSize), map[]), TimingKinds(r))) == [r]
  {
    var ks := TimingKinds(r);
    var c0 := Partial(Some(r.fileSize), map[]);
    var c1 := ApplyTimes(c0, ks[0].hit);
    var c2 := ApplyTimes(c1, ks[1].hit);
    var c3 := ApplyTimes(c2, ks[2].hit);
    var c4 := ApplyTimes(c3, ks[3].hit);
    assert FillTimes(c0, ks) == FillTimes(c1, ks[1..]);
    assert FillTimes(c1, ks[1..]) == FillTimes(c2, ks[2..]) by { assert ks[1..][1..] == ks[2..]; }
    assert FillTimes(c2, ks[2..]) == FillTimes(c3, ks[3..]) by { assert ks[2..][1..] == ks[3..]; }
    assert FillTimes(c3, ks[3..]) == FillTimes(c4, ks[4..]) by { assert ks[3..][1..] == ks[4..]; }
    assert ks[4..] == [];
    assert c4.times == map[MkdirTime := r.mkdirTime, TarPrepTime := r.tarPrepTime,
                           PutArchiveTime := r.putArchiveTime, TotalTime := r.totalTime];
  }

  /** A size line and its timing lines in front of later blocks add that one block's records in front of theirs. */
  lemma RecordsFromOfBlock(size: string, block: seq<LineKind>, later: seq<LineKind>)
    requires forall i :: 0 <= i < |block| ==> block[i].OtherLine?
    requires |later| == 0 || later[0].SizeLine?
    ensures RecordsFrom([SizeLine(size)] + (block + later))
         == Emit(FillTimes(Partial(Some(size), map[]), block)) + RecordsFrom(later)
  {
    var rest := block + later;
    var kinds := [SizeLine(size)] + rest;
    assert kinds[1..] == rest;
    PreambleFirstSize(block, later);
    assert rest[..|block|] == block && rest[|block|..] == later;
  }

  lemma {:induction false} RecordsOfRenderKinds(rs: seq<Record>)
    ensures RecordsFrom(RenderKinds(rs)) == rs
    decreases |rs|
  {
    if |rs| > 0 {
      var size := rs[0].fileSize;
      var block := TimingKinds(rs[0]);
      var later := RenderKinds(rs[1..]);
      calc {
        RecordsFrom(RenderKinds(rs));
        { RenderKindsAsBlocks(rs); }
        RecordsFrom([SizeLine(size)] + (block + later));
        { RecordsFromOfBlock(size, block, later); }
        Emit(FillTimes(Partial(Some(size), map[]), block)) + RecordsFrom(later);
        { EmitOfRecordBlock(rs[0]); RecordsOfRenderKinds(rs[1..]); }
        [rs[0]] + rs[1..];
      }
      assert [rs[0]] + rs[1..] == rs;
    }
  }

  /**
   * Printing well-formed records, each as a size header with any tail and its
   * four timing lines, and parsing that log gives the records back, in order.
   */
  lemma ParseLogOfRenderLog(rs: seq<Record>, tails: seq<string>)
    requires AllWellFormed(rs) && |tails| == |rs|
    ensures ParseLog(RenderLog(rs, tails)) == rs
  {
    KindsOfRenderLog(rs, tails);
    var kinds := Kinds(RenderLog(rs, tails));
    ParseLogByBlocks(RenderLog(rs, tails));
    assert FirstSize(kinds) == 0;
    assert kinds[0..] == kinds;
    RecordsOfRenderKinds(rs);
  }
}

=== FILE: Outcomes.dfy ===
/**
 * Shared result shapes. `Option` stands for a Python value that may be None;
 * `Outcome` stands for a call that either returns a value or raises an
 * exception whose `str()` is `message`.
 */
module Outcomes {

  datatype Option<+T> = None | Some(value: T)

  datatype Outcome<+T> = Ok(value: T) | Raised(message: string)
}

=== FILE: PythonExecute.dfy ===
/**
 * The code-execution tool of app/tool/python_execute.py.
 *
 * `Execute` picks the local path or the sandbox path from the configuration
 * on every call and always returns an `{observation, success}` value. The
 * child process, the sandbox client's driver and the file system are inputs:
 * what the executed code did, whether the child was still alive when the
 * parent stopped waiting, and what each driver or file call returned.
 */
module PythonExecute {
  import opened Outcomes
  import opened Text
  import SC = SandboxClient

  /** The dictionary `{"observation": ..., "success": ...}` every path returns. */
  datatype ExecResult = ExecResult(observation: string, success: bool)

  /** What the shared result dictionary holds before the child writes to it. */
  const Initial := ExecResult("", false)

  /** The `timeout` every entry point takes when the caller gives none. */
  const DefaultTimeout := 5

  // ---------------------------------------------------------------------------
  // Local path (lines 28-77)

  /**
   * What `exec` of the code did inside the child: ran to the end having printed
   * `printed`; raised an `Exception` with text `message` after printing
   * `printed`; or left without either (a BaseException such as SystemExit, or
   * the process dying).
   */
  datatype CodeRun = Completed(printed: string) | Threw(printed: string, message: string) | Escaped

  /** The child process: what its code did, and whether it was still alive after `join(timeout)`. */
  datatype Child = Child(run: CodeRun, aliveAfterJoin: bool)

  /**
   * `_run_code`: what the child writes into the shared dictionary. Success
   * exactly when the code completed; the printed text is the observation only
   * then, and an exception replaces it with the exception's text.
   */
  function RunCode(run: CodeRun): (written: Option<ExecResult>)
    ensures written.None? <==> run.Escaped?
    ensures written.Some? ==> (written.value.success <==> run.Completed?)
    ensures run.Completed? ==> written.value.observation == run.printed
    ensures run.Threw? ==> written.value.observation == run.message
  {
    match run
    case Completed(out) => Some(ExecResult(out, true))
    case Threw(_, message) => Some(ExecResult(message, false))
    case Escaped => None
  }

  /** The observation of a timed-out run: fixed words around the timeout's decimal text. */
  function TimeoutMessage(timeout: int): (m: string)
    ensures |m| > |"Execution timeout after "| + |" seconds"|
    ensures m[..|"Execution timeout after "|] == "Execution timeout after "
    ensures m[|m| - |" seconds"|..] == " seconds"
  {
    "Execution timeout after " + IntToString(timeout) + " seconds"
  }

  /**
   * The timeout message names the timeout: the text between its fixed words
   * reads back as `timeout`, for every timeout Python can format.
   */
  lemma TimeoutMessageNamesTimeout(timeout: int)
    requires DigitCount(timeout) <= MaxStrDigits
    ensures exists t :: TimeoutMessage(timeout) == "Execution timeout after " + t + " seconds" && ParseInt(t) == Some(timeout)
  {
    ParseIntOfString(timeout);
    var t := IntToString(timeout);
    assert TimeoutMessage(timeout) == "Execution timeout after " + t + " seconds";
  }

  /**
   * `_execute_in_current_env(code, timeout)`. A child still alive after the wait
   * gives the timeout result whatever it wrote; otherwise the dictionary as the
   * child left it, which is the initial `{"", False}` when it wrote nothing.
   */
  function ExecuteInCurrentEnv(timeout: int, child: Child): (r: ExecResult)
    ensures child.aliveAfterJoin ==> r == ExecResult(TimeoutMessage(timeout), false)
    ensures !child.aliveAfterJoin && child.run.Escaped? ==> r == Initial
    ensures r.success <==> !child.aliveAfterJoin && child.run.Completed?
    ensures !child.aliveAfterJoin && child.run.Completed? ==> r.observation == child.run.printed
    ensures !child.aliveAfterJoin && child.run.Threw? ==> r.observation == child.run.message
  {
    if child.aliveAfterJoin then ExecResult(TimeoutMessage(timeout), false)
    else
      match RunCode(child.run)
      case Some(written) => written
      case None => Initial
  }

  // ---------------------------------------------------------------------------
  // Sandbox path (lines 79-127)

  const Workspace := "/workspace/"

  const ErrorPrefix := "Sandbox execution error: "

  /**
   * Where the script goes inside the container: "/workspace/" followed by the
   * temp file's name, its last path component.
   */
  function ContainerPath(tempPath: string): (target: string)
    ensures |target| == |Workspace| + |Basename(tempPath)|
    ensures target[..|Workspace|] == Workspace
    ensures target[|Workspace|..] == Basename(tempPath)
    ensures '/' !in target[|Workspace|..]
  {
    Workspace + Basename(tempPath)
  }

  /** The command run in the container: "python " followed by the script's container path. */
  function PythonCommand(target: string): (command: string)
    ensures |command| == 7 + |target|
    ensures command[..7] == "python " && command[7..] == target
  {
    "python " + target
  }

  predicate IsSandboxError(r: ExecResult) {
    !r.success && |r.observation| >= |ErrorPrefix| && r.observation[..|ErrorPrefix|] == ErrorPrefix
  }

  /** The failed result for an exception with text `message`; the message follows the fixed prefix unchanged. */
  function SandboxError(message: string): (r: ExecResult)
    ensures IsSandboxError(r) && r.observation[|ErrorPrefix|..] == message
  {
    var r := ExecResult(ErrorPrefix + message, false);
    assert r.observation[..|ErrorPrefix|] == ErrorPrefix;
    r
  }

  /** The local script file written for the sandbox path. */
  datatype TempFile = TempFile(path: string, content: string)

  /**
   * What the sandbox path meets along the way: the global configuration `create`
   * reads, how building the driver goes, the temp file (its path, or the
   * exception raised creating it), and the replies of `copy_to`, `run_command`
   * and the unlink.
   */
  datatype SandboxEnv = SandboxEnv(
    global: SC.GlobalConfig,
    driverStart: SC.DriverStart,
    tempFile: Outcome<string>,
    copyTo: Outcome<()>,
    run: Outcome<string>,
    unlink: Outcome<()>)

  /** A call of the tool: its result, the sandbox client afterwards, the driver calls made, and the temp file left on disk, if any. */
  datatype Execution = Execution(result: ExecResult, client: SC.Client, calls: seq<SC.Call>, leftover: Option<TempFile>)

  /** The step at which the sandbox path succeeded end to end. */
  predicate SandboxPathSucceeds(c: SC.Client, env: SandboxEnv) {
    var created := SC.Create(c, SC.NoSettings, None, env.global, env.driverStart);
    && created.result.Ok?
    && created.client.session.Some?
    && env.tempFile.Ok?
    && env.copyTo.Ok?
    && env.run.Ok?
    && env.unlink.Ok?
  }

  /** What happens after `create`: the temp file, the copy, the run and the unlink. */
  datatype ScriptRun = ScriptRun(result: ExecResult, calls: seq<SC.Call>, leftover: Option<TempFile>)

  /**
   * Lines 111-121, once the script is in the container: run it with the
   * caller's timeout, then unlink the local file. With a session the driver
   * receives exactly the command "python /workspace/<file name>".
   */
  function RunAndUnlink(client: SC.Client, file: TempFile, timeout: int, env: SandboxEnv): (r: ScriptRun)
    ensures r.result.success <==> client.session.Some? && env.run.Ok? && env.unlink.Ok?
    ensures r.result.success ==> r.result.observation == env.run.value && r.leftover.None?
    ensures !r.result.success ==> IsSandboxError(r.result) && r.leftover == Some(file)
    ensures client.session.Some? ==>
      r.calls == [SC.Invoke(client.session.value, SC.DoRunCommand(PythonCommand(ContainerPath(file.path)), Some(timeout)))]
    ensures client.session.None? ==> r.calls == []
  {
    var ran := SC.RunCommand(client, PythonCommand(ContainerPath(file.path)), Some(timeout), env.run);
    if ran.result.Raised? then
      ScriptRun(SandboxError(ran.result.message), ran.calls, Some(file))
    else
      match env.unlink
      case Raised(m) => ScriptRun(SandboxError(m), ran.calls, Some(file))
      case Ok(_) => ScriptRun(ExecResult(ran.result.value, true), ran.calls, None)
  }

  /**
   * Lines 101-121 and their failures, with the client `create` left. With a
   * session, the driver receives the script at "/workspace/<file name>" and
   * then, if the copy succeeded, the command "python /workspace/<file name>"
   * with the caller's timeout; nothing else.
   */
  function RunScript(client: SC.Client, code: string, timeout: int, env: SandboxEnv): (r: ScriptRun)
    ensures r.result.success <==> client.session.Some? && env.tempFile.Ok? && env.copyTo.Ok? && env.run.Ok? && env.unlink.Ok?
    ensures r.result.success ==> r.result.observation == env.run.value && r.leftover.None?
    ensures !r.result.success ==> IsSandboxError(r.result)
    ensures r.leftover.Some? ==> env.tempFile.Ok? && r.leftover.value == TempFile(env.tempFile.value, code)
    ensures env.tempFile.Ok? && !r.result.success ==> r.leftover == Some(TempFile(env.tempFile.value, code))
    ensures env.tempFile.Ok? && client.session.Some? ==> |r.calls| == (if env.copyTo.Ok? then 2 else 1)
    ensures env.tempFile.Raised? || client.session.None? ==> r.calls == []
  {
    match env.tempFile
    case Raised(m) => ScriptRun(SandboxError(m), [], None)
    case Ok(temp) =>
      var file := TempFile(temp, code);
      var copied := SC.CopyTo(client, temp, ContainerPath(temp), env.copyTo);
      if copied.result.Raised? then
        ScriptRun(SandboxError(copied.result.message), copied.calls, Some(file))
      else
        var rest := RunAndUnlink(client, file, timeout, env);
        ScriptRun(rest.result, copied.calls + rest.calls, rest.leftover)
  }

  /**
   * The two driver calls of the sandbox path: the script goes to
   * "/workspace/<file name>" and, if that copy succeeded, the command
   * "python /workspace/<file name>" runs with the caller's timeout.
   */
  lemma RunScriptCalls(client: SC.Client, code: string, timeout: int, env: SandboxEnv)
    requires env.tempFile.Ok? && client.session.Some?
    ensures var r := RunScript(client, code, timeout, env);
            var d := client.session.value;
            var target := ContainerPath(env.tempFile.value);
            && r.calls[0] == SC.Invoke(d, SC.DoCopyTo(env.tempFile.value, target))
            && (env.copyTo.Ok? ==> r.calls[1] == SC.Invoke(d, SC.DoRunCommand(PythonCommand(target), Some(timeout))))
  {
    var temp := env.tempFile.value;
    var copied := SC.CopyTo(client, temp, ContainerPath(temp), env.copyTo);
    assert copied.calls == [SC.Invoke(client.session.value, SC.DoCopyTo(temp, ContainerPath(temp)))];
    if env.copyTo.Ok? {
      var rest := RunAndUnlink(client, TempFile(temp, code), timeout, env);
      assert RunScript(client, code, timeout, env).calls == copied.calls + rest.calls;
    }
  }

  /**
   * `_execute_in_sandbox(code, timeout)`. Any exception on the way becomes
   * "Sandbox execution error: <message>"; the output of `run_command` is the
   * observation of a success, uninspected. The temp file is removed only when
   * copy, run and unlink all succeed: a failure after it was written leaves it.
   */
  function ExecuteInSandbox(c: SC.Client, code: string, timeout: int, env: SandboxEnv): (r: Execution)
    ensures r.result.success <==> SandboxPathSucceeds(c, env)
    ensures r.result.success ==> r.result.observation == env.run.value && r.leftover.None?
    ensures !r.result.success ==> IsSandboxError(r.result)
    ensures r.leftover.Some? ==> env.tempFile.Ok? && r.leftover.value == TempFile(env.tempFile.value, code)
    ensures env.tempFile.Ok? && SC.Create(c, SC.NoSettings, None, env.global, env.driverStart).result.Ok? && !r.result.success ==>
      r.leftover == Some(TempFile(env.tempFile.value, code))
    ensures SC.Create(c, SC.NoSettings, None, env.global, env.driverStart).result.Raised? ==> r.leftover.None?
    ensures r.client == SC.Create(c, SC.NoSettings, None, env.global, env.driverStart).client
  {
    var created := SC.Create(c, SC.NoSettings, None, env.global, env.driverStart);
    if created.result.Raised? then
      Execution(SandboxError(created.result.message), created.client, created.calls, None)
    else
      var script := RunScript(created.client, code, timeout, env);
      Execution(script.result, created.client, created.calls + script.calls, script.leftover)
  }

  /**
   * When the client resolves to disabled and has no session, `create` does
   * nothing, the temp file is still written, and `copy_to` raises: the result
   * is "Sandbox execution error: Sandbox not initialized", no driver is called,
   * and the temp file is left behind.
   */
  lemma DisabledClientLeavesTempFile(c: SC.Client, code: string, timeout: int, env: SandboxEnv)
    requires c.session.None?
    requires !SC.ResolveUseSandbox(SC.NoSettings, env.global)
    requires env.tempFile.Ok?
    ensures var r := ExecuteInSandbox(c, code, timeout, env);
            && r.result == SandboxError(SC.NotInitialized)
            && r.result.observation == "Sandbox execution error: Sandbox not initialized"
            && r.calls == []
            && r.leftover == Some(TempFile(env.tempFile.value, code))
  {
    NotInitializedText();
  }

  /** The text of the error a call on a client without a session turns into. */
  lemma NotInitializedText()
    ensures SandboxError(SC.NotInitialized).observation == "Sandbox execution error: Sandbox not initialized"
  {
  }

  /**
   * A driver whose creation fails is still stored: the call reports the error
   * before any temp file is written, and the next call finds the session set, builds no driver and goes straight
   * to copying the script.
   */
  lemma FailedDriverCreationIsKept(c: SC.Client, code: string, timeout: int, env: SandboxEnv, env2: SandboxEnv)
    requires c.session.None?
    requires SC.ResolveUseSandbox(SC.NoSettings, env.global)
    requires env.driverStart.Constructed? && env.driverStart.created.Raised?
    requires env2.tempFile.Ok?
    ensures var first := ExecuteInSandbox(c, code, timeout, env);
            var second := ExecuteInSandbox(first.client, code, timeout, env2);
            && first.result == SandboxError(env.driverStart.created.message)
            && first.leftover.None?
            && first.client.session.Some?
            && second.client == first.client
            && |second.calls| >= 1
            && second.calls[0] == SC.Invoke(first.client.session.value,
                 SC.DoCopyTo(env2.tempFile.value, ContainerPath(env2.tempFile.value)))
  {
  }

  /**
   * A driver whose constructor raises is not stored: the call reports the
   * error before any temp file is written, and the client is left as it was.
   */
  lemma FailedConstructionWritesNothing(c: SC.Client, code: string, timeout: int, env: SandboxEnv)
    requires c.session.None?
    requires SC.ResolveUseSandbox(SC.NoSettings, env.global)
    requires env.driverStart.ConstructRaised?
    ensures var r := ExecuteInSandbox(c, code, timeout, env);
            && r.result == SandboxError(env.driverStart.message)
            && r.client == c
            && r.calls == []
            && r.leftover.None?
  {
  }

  // ---------------------------------------------------------------------------
  // Dispatch (lines 129-163)

  /** Reading `config.sandbox.use_sandbox`: its truth value, or an exception. */
  datatype ConfigRead = ReadFailed | Read(useSandbox: bool)

  /**
   * `execute(code, timeout)`: the sandbox path exactly when the configuration
   * reads as true; a failing read means the local path, which leaves the client
   * alone and calls no driver.
   */
  function Execute(c: SC.Client, code: string, timeout: int, config: ConfigRead,
                   child: Child, env: SandboxEnv): (r: Execution)
    ensures config == Read(true) ==> r == ExecuteInSandbox(c, code, timeout, env)
    ensures config != Read(true) ==>
      && r == Execution(ExecuteInCurrentEnv(timeout, child), c, [], None)
  {
    var useSandbox := match config
      case ReadFailed => false
      case Read(b) => b;
    if useSandbox then ExecuteInSandbox(c, code, timeout, env)
    else Execution(ExecuteInCurrentEnv(timeout, child), c, [], None)
  }

  /**
   * Whatever happens, a failed result says why: the timeout message, the child's
   * exception text, the initial empty observation, or a sandbox error. On the
   * sandbox path no `Exception` escapes: each becomes a sandbox error.
   */
  lemma ExecuteFailureShapes(c: SC.Client, code: string, timeout: int, config: ConfigRead, child: Child, env: SandboxEnv)
    ensures var r := Execute(c, code, timeout, config, child, env);
            !r.result.success ==>
              || IsSandboxError(r.result)
              || r.result == ExecResult(TimeoutMessage(timeout), false)
              || (child.run.Threw? && r.result == ExecResult(child.run.message, false))
              || r.result == Initial
  {
  }

  /**
   * A local run that outlives the default timeout reports it in the tool's
   * words: "Execution timeout after 5 seconds", and no success.
   */
  lemma DefaultTimeoutObservation(c: SC.Client, code: string, config: ConfigRead, child: Child, env: SandboxEnv)
    requires config != Read(true)
    requires child.aliveAfterJoin
    ensures var r := Execute(c, code, DefaultTimeout, config, child, env);
            r.result == ExecResult("Execution timeout after 5 seconds", false) && r.calls == [] && r.leftover.None?
  {
  }
}

=== FILE: RunAndCollect.dfy ===
/**
 * `parse_metrics_from_log` of test_perf/run_and_collect.py: from an agent's log,
 * the number of sandbox creations, the tools called in order, and the last
 * token-usage line read as a key/value map.
 *
 * The three regular expressions are modelled by what `re.findall` returns for
 * them: non-overlapping matches scanned left to right.
 */
module RunAndCollect {
  import opened Outcomes
  import opened Text

  const SandboxCreateMarker := "Starting Docker sandbox creation"
  const ToolCallPrefix := "Activating tool: '"
  const TokenUsageMarker := "Token usage: "

  /** True when `pattern` occurs in `s` at position `i`. */
  predicate OccursAt(s: string, pattern: string, i: nat) {
    i + |pattern| <= |s| && s[i..i + |pattern|] == pattern
  }

  ghost predicate Occurs(s: string, pattern: string) {
    exists i: nat :: OccursAt(s, pattern, i)
  }

  // ---------------------------------------------------------------------------
  // SANDBOX_CREATE_RE.findall: a literal, counted without overlap

  /** How many non-overlapping copies of `pattern` a left-to-right scan of `s` finds. */
  function CountOccurrences(s: string, pattern: string): (n: nat)
    requires |pattern| > 0
    ensures n * |pattern| <= |s|
    ensures n == 0 <==> !Occurs(s, pattern)
    decreases |s|
  {
    if |s| < |pattern| then
      NoRoomNoOccurrence(s, pattern);
      0
    else if s[..|pattern|] == pattern then
      assert OccursAt(s, pattern, 0);
      1 + CountOccurrences(s[|pattern|..], pattern)
    else
      OccursInTail(s, pattern);
      CountOccurrences(s[1..], pattern)
  }

  lemma NoRoomNoOccurrence(s: string, pattern: string)
    requires |s| < |pattern|
    ensures !Occurs(s, pattern)
  {
  }

  /** Where the pattern does not start `s`, it occurs in `s` exactly when it occurs in `s[1..]`. */
  lemma OccursInTail(s: string, pattern: string)
    requires |s| > 0 && |pattern| > 0
    requires !OccursAt(s, pattern, 0)
    ensures Occurs(s, pattern) <==> Occurs(s[1..], pattern)
  {
    if Occurs(s, pattern) {
      var i: nat :| OccursAt(s, pattern, i);
      assert i > 0;
      assert s[1..][i - 1..i - 1 + |pattern|] == s[i..i + |pattern|];
      assert OccursAt(s[1..], pattern, i - 1);
    }
    if Occurs(s[1..], pattern) {
      var i: nat :| OccursAt(s[1..], pattern, i);
      assert s[i + 1..i + 1 + |pattern|] == s[1..][i..i + |pattern|];
      assert OccursAt(s, pattern, i + 1);
    }
  }

  /** Dropping a prefix of the first text commutes with joining two texts at a line break. */
  lemma DropOfJoin(a: string, b: string, k: nat)
    requires k <= |a|
    ensures (a + "\n" + b)[k..] == a[k..] + "\n" + b
  {
  }

  /** A pattern without a line break opens two texts joined at a line break exactly when it opens the first. */
  lemma OpensAcross(a: string, b: string, pattern: string)
    requires |pattern| > 0 && '\n' !in pattern
    ensures OccursAt(a + "\n" + b, pattern, 0) <==> OccursAt(a, pattern, 0)
  {
    var s := a + "\n" + b;
    var p := |pattern|;
    if |a| >= p {
      assert s[..p] == a[..p];
    } else if |s| >= p {
      assert s[..p][|a|] == '\n' != pattern[|a|];
    }
  }

  /** None of the three patterns holds a line break. */
  lemma MarkersInLine()
    ensures '\n' !in SandboxCreateMarker && '\n' !in ToolCallPrefix && '\n' !in TokenUsageMarker
  {
    assert forall i :: 0 <= i < |SandboxCreateMarker| ==> SandboxCreateMarker[i] != '\n';
    assert forall i :: 0 <= i < |ToolCallPrefix| ==> ToolCallPrefix[i] != '\n';
    assert forall i :: 0 <= i < |TokenUsageMarker| ==> TokenUsageMarker[i] != '\n';
  }

  /** `len(SANDBOX_CREATE_RE.findall(text))`, as the scan the regular expression engine performs. */
  method CountCreations(text: string) returns (count: nat)
    ensures count == CountOccurrences(text, SandboxCreateMarker)
    ensures count == 0 <==> !Occurs(text, SandboxCreateMarker)
  {
    count := 0;
    var i := 0;
    while i < |text|
      invariant 0 <= i <= |text|
      invariant count + CountOccurrences(text[i..], SandboxCreateMarker) == CountOccurrences(text, SandboxCreateMarker)
      decreases |text| - i
    {
      ScanStep(text, SandboxCreateMarker, i);
      if OccursAt(text, SandboxCreateMarker, i) {
        count := count + 1;
        i := i + |SandboxCreateMarker|;
      } else {
        i := i + 1;
      }
    }
    assert text[i..] == "";
  }

  /** One step of the scan at position `i`: a copy found there is counted and skipped. */
  lemma ScanStep(text: string, pattern: string, i: nat)
    requires |pattern| > 0 && i < |text|
    ensures OccursAt(text, pattern, i) ==>
              CountOccurrences(text[i..], pattern) == 1 + CountOccurrences(text[i + |pattern|..], pattern)
    ensures !OccursAt(text, pattern, i) ==>
              CountOccurrences(text[i..], pattern) == CountOccurrences(text[i + 1..], pattern)
  {
    var s := text[i..];
    if |s| >= |pattern| {
      assert s[..|pattern|] == text[i..i + |pattern|];
    }
    if OccursAt(text, pattern, i) {
      assert s[|pattern|..] == text[i + |pattern|..];
    } else {
      assert s[1..] == text[i + 1..];
    }
  }

  /**
   * A pattern without a line break cannot straddle the line break joining two
   * texts, so the count over the joined text is the sum of the two counts.
   */
  lemma {:induction false} CountAcrossLineBreak(a: string, b: string, pattern: string)
    requires |pattern| > 0 && '\n' !in pattern
    ensures CountOccurrences(a + "\n" + b, pattern) == CountOccurrences(a, pattern) + CountOccurrences(b, pattern)
    decreases |a|
  {
    var s := a + "\n" + b;
    var p := |pattern|;
    OpensAcross(a, b, pattern);
    if |a| == 0 {
      assert s[1..] == b;
    } else if OccursAt(a, pattern, 0) {
      assert s[..p] == pattern && a[..p] == pattern;
      DropOfJoin(a, b, p);
      CountAcrossLineBreak(a[p..], b, pattern);
    } else {
      DropOfJoin(a, b, 1);
      CountAcrossLineBreak(a[1..], b, pattern);
    }
  }

  // ---------------------------------------------------------------------------
  // TOOL_CALL_RE.findall: the names in `Activating tool: '<name>'`

  /** `[\w_\-]`, with `\w` restricted to ASCII letters, digits and the underscore. */
  predicate IsNameChar(c: char) {
    'a' <= c <= 'z' || 'A' <= c <= 'Z' || '0' <= c <= '9' || c == '_' || c == '-'
  }

  predicate IsToolName(name: string) {
    |name| > 0 && forall i :: 0 <= i < |name| ==> IsNameChar(name[i])
  }

  /** Length of the longest prefix of name characters. */
  function NameRun(s: string): (n: nat)
    ensures n <= |s|
    ensures forall i :: 0 <= i < n ==> IsNameChar(s[i])
    ensures n == |s| || !IsNameChar(s[n])
    decreases |s|
  {
    if |s| > 0 && IsNameChar(s[0]) then 1 + NameRun(s[1..]) else 0
  }

  /**
   * The pattern tried at the start of `s`: the prefix, a greedy run of name
   * characters, then a quote. The run cannot give back characters to reach the
   * quote, as the quote is not a name character, so the match exists exactly
   * when the longest run is non-empty and a quote follows it. The result is the
   * captured name and the length of the whole match.
   */
  function MatchToolAt(s: string): (m: Option<(string, nat)>)
    ensures m.Some? ==> IsToolName(m.value.0) && 0 < m.value.1 <= |s|
    ensures m.Some? ==> s[..m.value.1] == ToolCallPrefix + m.value.0 + "'"
  {
    var p := |ToolCallPrefix|;
    if |s| >= p && s[..p] == ToolCallPrefix then
      match QuotedName(s[p..])
      case Some(name) =>
        assert s[..p + |name| + 1] == s[..p] + s[p..][..|name| + 1];
        Some((name, p + |name| + 1))
      case None => None
    else None
  }

  /** After the prefix: the longest run of name characters, when it is non-empty and a quote follows it. */
  function QuotedName(rest: string): (r: Option<string>)
    ensures r.Some? ==> IsToolName(r.value) && |r.value| < |rest| && rest[..|r.value| + 1] == r.value + "'"
  {
    var n := NameRun(rest);
    if n > 0 && n < |rest| && rest[n] == '\'' then
      assert rest[..n + 1] == rest[..n] + "'";
      Some(rest[..n])
    else None
  }

  /** `TOOL_CALL_RE.findall(text)`: every captured name, in log order. */
  function ToolNames(s: string): (names: seq<string>)
    ensures forall i :: 0 <= i < |names| ==> IsToolName(names[i])
    decreases |s|
  {
    if |s| == 0 then []
    else
      match MatchToolAt(s)
      case Some((name, len)) => [name] + ToolNames(s[len..])
      case None => ToolNames(s[1..])
  }

  /** A log line announcing one tool. */
  function ToolLine(name: string): string {
    ToolCallPrefix + name + "'\n"
  }

  /** A log made of one announcement line per tool, in order. */
  function ToolLog(names: seq<string>): string
    decreases |names|
  {
    if |names| == 0 then "" else ToolLine(names[0]) + ToolLog(names[1..])
  }

  lemma ToolLineMatches(name: string, rest: string)
    requires IsToolName(name)
    ensures MatchToolAt(ToolLine(name) + rest) == Some((name, |ToolCallPrefix| + |name| + 1))
  {
    var s := ToolLine(name) + rest;
    var p := |ToolCallPrefix|;
    assert s[..p] == ToolCallPrefix;
    assert s[p..] == name + ("'\n" + rest);
    var n := NameRun(s[p..]);
    assert s[p..][|name|] == '\'';
    assert n == |name|;
    assert s[p..p + n] == name;
  }

  lemma ToolNamesAfterNewline(rest: string)
    ensures ToolNames("\n" + rest) == ToolNames(rest)
  {
    var s := "\n" + rest;
    var p := |ToolCallPrefix|;
    if |s| >= p {
      assert s[..p][0] == '\n' != ToolCallPrefix[0];
    }
    assert MatchToolAt(s).None?;
    assert s[1..] == rest;
  }

  /** An announcement line opening a text gives its name, then the names of the rest. */
  lemma ToolNamesOfLine(name: string, rest: string)
    requires IsToolName(name)
    ensures ToolNames(ToolLine(name) + rest) == [name] + ToolNames(rest)
  {
    var s := ToolLine(name) + rest;
    ToolLineMatches(name, rest);
    var len := |ToolCallPrefix| + |name| + 1;
    assert s[len..] == "\n" + rest;
    ToolNamesAfterNewline(rest);
  }

  /** The names are read back from a log of announcement lines exactly, in order. */
  lemma {:induction false} ToolNamesOfToolLog(names: seq<string>)
    requires forall i :: 0 <= i < |names| ==> IsToolName(names[i])
    ensures ToolNames(ToolLog(names)) == names
    decreases |names|
  {
    if |names| > 0 {
      ToolNamesOfLine(names[0], ToolLog(names[1..]));
      ToolNamesOfToolLog(names[1..]);
    }
  }

  /** A run of name characters ends where a character that cannot be in a name follows. */
  lemma {:induction false} NameRunStops(s: string, t: string)
    requires |t| > 0 && !IsNameChar(t[0])
    ensures NameRun(s + t) == NameRun(s)
    decreases |s|
  {
    if |s| == 0 {
      assert s + t == t;
    } else {
      assert (s + t)[0] == s[0];
      assert (s + t)[1..] == s[1..] + t;
      NameRunStops(s[1..], t);
    }
  }

  /** A match never reaches past the end of its line: text after a line break does not change it. */
  lemma MatchToolInLine(a: string, b: string)
    ensures MatchToolAt(a + "\n" + b) == MatchToolAt(a)
  {
    var p := |ToolCallPrefix|;
    MarkersInLine();
    OpensAcross(a, b, ToolCallPrefix);
    if OccursAt(a, ToolCallPrefix, 0) {
      DropOfJoin(a, b, p);
      QuotedNameInLine(a[p..], b);
      PrefixOpens(a + "\n" + b);
      PrefixOpens(a);
    }
  }

  /** `OccursAt` at the start is the test `MatchToolAt` makes on the prefix. */
  lemma PrefixOpens(s: string)
    ensures OccursAt(s, ToolCallPrefix, 0) <==> |s| >= |ToolCallPrefix| && s[..|ToolCallPrefix|] == ToolCallPrefix
  {
  }

  /** The name and its closing quote lie within the line. */
  lemma QuotedNameInLine(rest: string, b: string)
    ensures QuotedName(rest + "\n" + b) == QuotedName(rest)
  {
    var t := "\n" + b;
    assert rest + "\n" + b == rest + t;
    NameRunStops(rest, t);
    var n := NameRun(rest);
    if n < |rest| {
      assert (rest + t)[n] == rest[n];
      assert (rest + t)[..n] == rest[..n];
    } else {
      assert (rest + t)[n] == '\n';
    }
  }

  /** Where a name is captured at the start, it comes first and the scan resumes after the match. */
  lemma ToolStepAt(s: string, name: string, len: nat, rest: string)
    requires |s| > 0 && MatchToolAt(s) == Some((name, len)) && rest == s[len..]
    ensures ToolNames(s) == [name] + ToolNames(rest)
  {
  }

  /** Where nothing is captured at the start, the scan moves on by one character. */
  lemma ToolSkipAt(s: string, rest: string)
    requires |s| > 0 && MatchToolAt(s).None? && rest == s[1..]
    ensures ToolNames(s) == ToolNames(rest)
  {
  }

  /** No name spans a line break: the names of two joined texts are the names of each, in order. */
  lemma {:induction false} ToolNamesAcrossLineBreak(a: string, b: string)
    ensures ToolNames(a + "\n" + b) == ToolNames(a) + ToolNames(b)
    decreases |a|
  {
    if |a| == 0 {
      assert a + "\n" + b == "\n" + b;
      ToolNamesAfterNewline(b);
    } else if MatchToolAt(a).Some? {
      var len := MatchToolAt(a).value.1;
      ToolNamesAcrossLineBreak(a[len..], b);
      ToolsAcrossMatch(a, b);
    } else {
      ToolNamesAcrossLineBreak(a[1..], b);
      ToolsAcrossSkip(a, b);
    }
  }

  lemma ToolsAcrossMatch(a: string, b: string)
    requires MatchToolAt(a).Some?
    requires var len := MatchToolAt(a).value.1;
             ToolNames(a[len..] + "\n" + b) == ToolNames(a[len..]) + ToolNames(b)
    ensures ToolNames(a + "\n" + b) == ToolNames(a) + ToolNames(b)
  {
    var name := MatchToolAt(a).value.0;
    var len := MatchToolAt(a).value.1;
    MatchToolInLine(a, b);
    DropOfJoin(a, b, len);
    ToolStepAt(a + "\n" + b, name, len, a[len..] + "\n" + b);
    ToolStepAt(a, name, len, a[len..]);
    AppendAssoc([name], ToolNames(a[len..]), ToolNames(b));
  }

  lemma ToolsAcrossSkip(a: string, b: string)
    requires |a| > 0 && MatchToolAt(a).None?
    requires ToolNames(a[1..] + "\n" + b) == ToolNames(a[1..]) + ToolNames(b)
    ensures ToolNames(a + "\n" + b) == ToolNames(a) + ToolNames(b)
  {
    MatchToolInLine(a, b);
    DropOfJoin(a, b, 1);
    ToolSkipAt(a + "\n" + b, a[1..] + "\n" + b);
    ToolSkipAt(a, a[1..]);
  }

  /** One announcement line between any two texts adds exactly its name, between theirs. */
  lemma ToolNamesAroundLine(a: string, name: string, b: string)
    requires IsToolName(name)
    ensures ToolNames(a + "\n" + ToolLine(name) + b) == ToolNames(a) + [name] + ToolNames(b)
  {
    assert a + "\n" + ToolLine(name) + b == a + "\n" + (ToolLine(name) + b);
    ToolNamesAcrossLineBreak(a, ToolLine(name) + b);
    ToolNamesOfLine(name, b);
  }

  // ---------------------------------------------------------------------------
  // TOKEN_USAGE_RE.findall: `Token usage: (.*)`

  /** The longest prefix without a line break: what `(.*)` captures. */
  function RestOfLine(s: string): (line: string)
    ensures |line| <= |s| && line == s[..|line|]
    ensures '\n' !in line
    ensures |line| == |s| || s[|line|] == '\n'
    decreases |s|
  {
    if |s| == 0 || s[0] == '\n' then ""
    else
      var line := [s[0]] + RestOfLine(s[1..]);
      assert s[..|line|] == [s[0]] + s[1..][..|line| - 1];
      line
  }

  /**
   * `TOKEN_USAGE_RE.findall(text)`. Each match runs to the end of its line, so a
   * second marker on the same line is part of the first match's text rather
   * than a match of its own.
   */
  function TokenUsageMatches(s: string): (ms: seq<string>)
    ensures ms == [] <==> !Occurs(s, TokenUsageMarker)
    ensures forall i :: 0 <= i < |ms| ==> '\n' !in ms[i]
    decreases |s|
  {
    var p := |TokenUsageMarker|;
    if |s| < p then
      NoRoomNoOccurrence(s, TokenUsageMarker);
      []
    else if s[..p] == TokenUsageMarker then
      assert OccursAt(s, TokenUsageMarker, 0);
      var line := RestOfLine(s[p..]);
      [line] + TokenUsageMatches(s[p + |line|..])
    else
      OccursInTail(s, TokenUsageMarker);
      TokenUsageMatches(s[1..])
  }

  /** A line ends at the first line break, whatever follows it. */
  lemma {:induction false} RestOfLineAcross(x: string, y: string)
    ensures RestOfLine(x + "\n" + y) == RestOfLine(x)
    decreases |x|
  {
    var s := x + "\n" + y;
    if |x| > 0 && x[0] != '\n' {
      assert s[0] == x[0];
      assert s[1..] == x[1..] + "\n" + y;
      RestOfLineAcross(x[1..], y);
    }
  }

  /** Where no match opens the text, the scan moves on by one character. */
  lemma SkipStep(s: string)
    requires |s| > 0 && !OccursAt(s, TokenUsageMarker, 0)
    ensures TokenUsageMatches(s) == TokenUsageMatches(s[1..])
  {
  }

  /** No match spans a line break: the matches of two joined texts are those of each, in order. */
  lemma {:induction false} TokenUsageAcrossLineBreak(a: string, b: string)
    ensures TokenUsageMatches(a + "\n" + b) == TokenUsageMatches(a) + TokenUsageMatches(b)
    decreases |a|
  {
    if |a| == 0 {
      AcrossEmpty(a, b);
    } else if OccursAt(a, TokenUsageMarker, 0) {
      var k := |TokenUsageMarker| + |RestOfLine(a[|TokenUsageMarker|..])|;
      TokenUsageAcrossLineBreak(a[k..], b);
      AcrossOpen(a, b);
    } else {
      TokenUsageAcrossLineBreak(a[1..], b);
      AcrossSkip(a, b);
    }
  }

  lemma AcrossEmpty(a: string, b: string)
    requires |a| == 0
    ensures TokenUsageMatches(a + "\n" + b) == TokenUsageMatches(a) + TokenUsageMatches(b)
  {
    var s := a + "\n" + b;
    assert s[0] == '\n' != TokenUsageMarker[0];
    SkipStep(s);
    assert s[1..] == b;
  }

  /** The scan over both texts opens with the same match as the scan over the first. */
  lemma AcrossOpen(a: string, b: string)
    requires OccursAt(a, TokenUsageMarker, 0)
    requires var k := |TokenUsageMarker| + |RestOfLine(a[|TokenUsageMarker|..])|;
             TokenUsageMatches(a[k..] + "\n" + b) == TokenUsageMatches(a[k..]) + TokenUsageMatches(b)
    ensures TokenUsageMatches(a + "\n" + b) == TokenUsageMatches(a) + TokenUsageMatches(b)
  {
    var line := RestOfLine(a[|TokenUsageMarker|..]);
    var k := |TokenUsageMarker| + |line|;
    calc {
      TokenUsageMatches(a + "\n" + b);
    == { OpenAcross(a, b); }
      [line] + TokenUsageMatches(a[k..] + "\n" + b);
    ==
      [line] + (TokenUsageMatches(a[k..]) + TokenUsageMatches(b));
    == { AppendAssoc([line], TokenUsageMatches(a[k..]), TokenUsageMatches(b)); }
      ([line] + TokenUsageMatches(a[k..])) + TokenUsageMatches(b);
    == { OpenStepAt(a, line, a[k..]); }
      TokenUsageMatches(a) + TokenUsageMatches(b);
    }
  }

  /** A match opening the first text opens the joined text, ends at the same place, and the scan resumes there. */
  lemma OpenAcross(a: string, b: string)
    requires OccursAt(a, TokenUsageMarker, 0)
    ensures var line := RestOfLine(a[|TokenUsageMarker|..]);
            var k := |TokenUsageMarker| + |line|;
            TokenUsageMatches(a + "\n" + b) == [line] + TokenUsageMatches(a[k..] + "\n" + b)
  {
    var p := |TokenUsageMarker|;
    var line := RestOfLine(a[p..]);
    var k := p + |line|;
    OpensJoined(a, b);
    DropOfJoin(a, b, p);
    RestOfLineAcross(a[p..], b);
    DropOfJoin(a, b, k);
    OpenStepAt(a + "\n" + b, line, a[k..] + "\n" + b);
  }

  /** Where a match opens the text, it takes the rest of the line and the scan resumes after it. */
  lemma OpenStepAt(s: string, line: string, rest: string)
    requires OccursAt(s, TokenUsageMarker, 0)
    requires line == RestOfLine(s[|TokenUsageMarker|..])
    requires rest == s[|TokenUsageMarker| + |line|..]
    ensures TokenUsageMatches(s) == [line] + TokenUsageMatches(rest)
  {
    assert s[..|TokenUsageMarker|] == TokenUsageMarker;
  }

  lemma OpensJoined(a: string, b: string)
    requires OccursAt(a, TokenUsageMarker, 0)
    ensures OccursAt(a + "\n" + b, TokenUsageMarker, 0)
  {
    MarkersInLine();
    OpensAcross(a, b, TokenUsageMarker);
  }

  lemma AppendAssoc<T>(x: seq<T>, y: seq<T>, z: seq<T>)
    ensures x + (y + z) == (x + y) + z
  {
  }

  /** Where no match opens the first text, none opens the joined text either. */
  lemma AcrossSkip(a: string, b: string)
    requires |a| > 0 && !OccursAt(a, TokenUsageMarker, 0)
    requires TokenUsageMatches(a[1..] + "\n" + b) == TokenUsageMatches(a[1..]) + TokenUsageMatches(b)
    ensures TokenUsageMatches(a + "\n" + b) == TokenUsageMatches(a) + TokenUsageMatches(b)
  {
    MarkersInLine();
    OpensAcross(a, b, TokenUsageMarker);
    SkipStep(a);
    SkipStep(a + "\n" + b);
    DropOfJoin(a, b, 1);
  }

  // ---------------------------------------------------------------------------
  // The token map

  /** A value of the token map: an `int` when `int(v)` succeeds, else the stripped text. */
  datatype TokenValue = IntValue(n: int) | TextValue(text: string)

  /** `int(v)` when it succeeds, else the stripped text. */
  function ValueOf(v: string): (r: TokenValue)
    ensures r.IntValue? <==> ParseInt(v).Some?
    ensures r.IntValue? ==> ParseInt(v) == Some(r.n)
    ensures r.TextValue? ==> r.text == Strip(v)
  {
    match ParseInt(v)
    case Some(n) => IntValue(n)
    case None => TextValue(Strip(v))
  }

  /**
   * A value padded with white space that includes an information separator is
   * kept as text: `strip()` removes the padding but `int()` refuses the
   * separator, so `"\x1c5\xa0"` is stored as "5", not as 5.
   */
  lemma SeparatorPaddedValueIsText(a: string, t: string, b: string)
    requires AllSpace(a) && AllSpace(b) && Trimmed(t)
    requires HasInfoSeparator(a + b)
    ensures ValueOf(a + t + b) == TextValue(t)
  {
    var s := a + t + b;
    var o := a + b;
    var i :| 0 <= i < |o| && IsInfoSeparator(o[i]);
    if i < |a| {
      assert s[i] == o[i];
    } else {
      assert s[i + |t|] == o[i];
    }
    assert HasInfoSeparator(s);
    StripOfPadded(a, t, b);
  }

  /**
   * A value of more digits than `int()` converts is kept as text: the entry
   * holds the stripped digits, not a number.
   */
  lemma LongDigitRunIsText(a: string, t: string, b: string)
    requires AllSpace(a) && AllSpace(b)
    requires AllDigits(t) && |t| > MaxStrDigits
    ensures ValueOf(a + t + b) == TextValue(t)
  {
    TooManyDigitsStopsInt(a, t, b);
    assert !IsSpace(t[0]) && !IsSpace(t[|t| - 1]);
    StripOfPadded(a, t, b);
  }

  /**
   * One comma-separated part, already stripped: none without '='; otherwise the
   * stripped text before the first '=' as key, and the rest as the value.
   */
  function ParsePart(part: string): (r: Option<(string, TokenValue)>)
    ensures r.None? <==> '=' !in part
  {
    match SplitOnce(part, '=')
    case None => None
    case Some((k, v)) => Some((Strip(k), ValueOf(v)))
  }

  /**
   * A part with '=' splits at its first '=': the key is the stripped text before
   * it and the value is read from the text after it.
   */
  lemma ParsePartSplits(part: string)
    requires '=' in part
    ensures exists k, v :: part == k + "=" + v && '=' !in k && ParsePart(part) == Some((Strip(k), ValueOf(v)))
  {
    var pair := SplitOnce(part, '=').value;
    assert part == pair.0 + "=" + pair.1;
    assert ParsePart(part) == Some((Strip(pair.0), ValueOf(pair.1)));
  }

  /** The parts of the captured text: split on commas and stripped. */
  function Parts(line: string): (parts: seq<string>)
    ensures var pieces := Split(line, ',');
            |parts| == |pieces| && forall i :: 0 <= i < |parts| ==> parts[i] == Strip(pieces[i])
  {
    var pieces := Split(line, ',');
    seq(|pieces|, i requires 0 <= i < |pieces| => Strip(pieces[i]))
  }

  /**
   * A dictionary filled from entries in order, skipping the empty ones; a later
   * entry overwrites an earlier one with the same key.
   */
  function Collect<K(==), V>(entries: seq<Option<(K, V)>>): map<K, V>
    decreases |entries|
  {
    if |entries| == 0 then map[]
    else
      var m := Collect(entries[..|entries| - 1]);
      match entries[|entries| - 1]
      case None => m
      case Some((k, v)) => m[k := v]
  }

  /** True when entry `e` is present and has key `key`. */
  predicate EntryHasKey<K(==), V>(e: Option<(K, V)>, key: K) {
    e.Some? && e.value.0 == key
  }

  /** A key is collected exactly when some entry has it. */
  lemma {:induction false} CollectKeys<K, V>(entries: seq<Option<(K, V)>>, key: K)
    ensures key in Collect(entries) <==> exists i :: 0 <= i < |entries| && EntryHasKey(entries[i], key)
    decreases |entries|
  {
    if |entries| > 0 {
      var init := entries[..|entries| - 1];
      var last := entries[|entries| - 1];
      CollectKeys(init, key);
      if EntryHasKey(last, key) {
        assert key in Collect(entries);
      } else {
        assert key in Collect(entries) <==> key in Collect(init);
        if key in Collect(init) {
          var i :| 0 <= i < |init| && EntryHasKey(init[i], key);
          assert entries[i] == init[i];
        }
        if exists i :: 0 <= i < |entries| && EntryHasKey(entries[i], key) {
          var i :| 0 <= i < |entries| && EntryHasKey(entries[i], key);
          assert init[i] == entries[i];
        }
      }
    }
  }

  /** The collected value of a key is that of the last entry with the key. */
  lemma {:induction false} CollectLastWins<K, V>(entries: seq<Option<(K, V)>>, i: nat)
    requires i < |entries| && entries[i].Some?
    requires forall j :: i < j < |entries| ==> !EntryHasKey(entries[j], entries[i].value.0)
    ensures entries[i].value.0 in Collect(entries)
    ensures Collect(entries)[entries[i].value.0] == entries[i].value.1
    decreases |entries|
  {
    if i < |entries| - 1 {
      var init := entries[..|entries| - 1];
      assert init[i] == entries[i];
      forall j | i < j < |init|
        ensures !EntryHasKey(init[j], init[i].value.0)
      {
        assert init[j] == entries[j];
      }
      CollectLastWins(init, i);
    }
  }

  /** Each part parsed on its own. */
  function Entries(parts: seq<string>): (es: seq<Option<(string, TokenValue)>>)
    ensures |es| == |parts| && forall i :: 0 <= i < |parts| ==> es[i] == ParsePart(parts[i])
  {
    seq(|parts|, i requires 0 <= i < |parts| => ParsePart(parts[i]))
  }

  /**
   * The dictionary built from the parts in order; a later part overwrites an
   * earlier one with the same key. Its keys are exactly those the parts give.
   */
  function TokenMap(parts: seq<string>): (m: map<string, TokenValue>)
    ensures forall key :: key in m <==> exists i :: 0 <= i < |parts| && HasKey(parts[i], key)
  {
    KeysOfParts(parts);
    Collect(Entries(parts))
  }

  /** The key a part contributes, if it has one. */
  predicate HasKey(part: string, key: string) {
    ParsePart(part).Some? && ParsePart(part).value.0 == key
  }

  lemma KeysOfParts(parts: seq<string>)
    ensures forall key :: key in Collect(Entries(parts)) <==> exists i :: 0 <= i < |parts| && HasKey(parts[i], key)
  {
    var es := Entries(parts);
    forall key
      ensures key in Collect(es) <==> exists i :: 0 <= i < |parts| && HasKey(parts[i], key)
    {
      CollectKeys(es, key);
      assert forall i :: 0 <= i < |parts| ==> (HasKey(parts[i], key) <==> EntryHasKey(es[i], key));
    }
  }

  /** For a key given more than once, the map holds the value of the last part with that key. */
  lemma TokenMapLastWins(parts: seq<string>, i: nat, key: string, value: TokenValue)
    requires i < |parts| && ParsePart(parts[i]) == Some((key, value))
    requires forall j :: i < j < |parts| ==> !HasKey(parts[j], key)
    ensures key in TokenMap(parts) && TokenMap(parts)[key] == value
  {
    var es := Entries(parts);
    forall j | i < j < |es|
      ensures !EntryHasKey(es[j], key)
    {
      assert !HasKey(parts[j], key);
    }
    CollectLastWins(es, i);
  }

  // ---------------------------------------------------------------------------
  // parse_metrics_from_log

  /** The three keys the function always fills. `tokenUsage` is None when no token-usage line exists. */
  datatype Metrics = Metrics(sandboxCreationCount: nat, toolsCalled: seq<string>, tokenUsage: Option<map<string, TokenValue>>)

  function ParseMetrics(text: string): (m: Metrics)
    ensures m.tokenUsage.None? <==> !Occurs(text, TokenUsageMarker)
    ensures m.sandboxCreationCount == 0 <==> !Occurs(text, SandboxCreateMarker)
    ensures forall i :: 0 <= i < |m.toolsCalled| ==> IsToolName(m.toolsCalled[i])
  {
    Metrics(
      CountOccurrences(text, SandboxCreateMarker),
      ToolNames(text),
      LastTokenMap(TokenUsageMatches(text)))
  }

  /** The map read from the last captured text, or None when nothing was captured. */
  function LastTokenMap(usage: seq<string>): (r: Option<map<string, TokenValue>>)
    ensures r.None? <==> |usage| == 0
  {
    if |usage| == 0 then None else Some(TokenMap(Parts(usage[|usage| - 1])))
  }

  /** Of two runs of captures, the later one decides the map when it has any. */
  lemma LastTokenMapOfJoin(xs: seq<string>, ys: seq<string>)
    ensures LastTokenMap(xs + ys) == if |ys| > 0 then LastTokenMap(ys) else LastTokenMap(xs)
  {
    if |ys| == 0 {
      assert xs + ys == xs;
    } else {
      assert (xs + ys)[|xs + ys| - 1] == ys[|ys| - 1];
    }
  }

  /**
   * `run_prompt` parses the child's output and error streams joined by a line
   * break. Creations add up, the tools of the output come before those of the
   * error stream, and the token usage is the error stream's when it has any,
   * else the output's.
   */
  lemma MetricsOfCombinedOutput(stdout: string, stderr: string)
    ensures var m := ParseMetrics(stdout + "\n" + stderr);
            var o := ParseMetrics(stdout);
            var e := ParseMetrics(stderr);
            && m.sandboxCreationCount == o.sandboxCreationCount + e.sandboxCreationCount
            && m.toolsCalled == o.toolsCalled + e.toolsCalled
            && m.tokenUsage == (if e.tokenUsage.Some? then e.tokenUsage else o.tokenUsage)
  {
    MarkersInLine();
    CountAcrossLineBreak(stdout, stderr, SandboxCreateMarker);
    ToolNamesAcrossLineBreak(stdout, stderr);
    TokenUsageAcrossLineBreak(stdout, stderr);
    LastTokenMapOfJoin(TokenUsageMatches(stdout), TokenUsageMatches(stderr));
  }

  /** A text that starts a fresh line when something is appended to it. */
  predicate EndsLine(s: string) {
    |s| == 0 || s[|s| - 1] == '\n'
  }

  /** A text that is empty or opens with a line break: it ends whatever line precedes it. */
  predicate StartsLine(s: string) {
    |s| == 0 || s[0] == '\n'
  }

  /**
   * Token usage comes from the last match only: in a log where the line
   * "Token usage: <line>" has only marker-free lines after it, that line alone
   * decides the map, read from `<line>` through to its end (a second marker
   * inside it is just text).
   */
  lemma TokenUsageFromLastLine(prefix: string, line: string, suffix: string)
    requires EndsLine(prefix)
    requires '\n' !in line
    requires StartsLine(suffix) && !Occurs(suffix, TokenUsageMarker)
    ensures ParseMetrics(prefix + TokenUsageMarker + line + suffix).tokenUsage == Some(TokenMap(Parts(line)))
  {
    LastMatchIsLine(prefix, line, suffix);
  }

  lemma LastMatchIsLine(prefix: string, line: string, suffix: string)
    requires EndsLine(prefix)
    requires '\n' !in line
    requires StartsLine(suffix) && !Occurs(suffix, TokenUsageMarker)
    ensures var ms := TokenUsageMatches(prefix + TokenUsageMarker + line + suffix);
            |ms| > 0 && ms[|ms| - 1] == line
  {
    var mid := TokenUsageMarker + line + suffix;
    OnlyMatch(line, suffix);
    Regroup(prefix, TokenUsageMarker, line, suffix);
    if |prefix| == 0 {
      assert prefix + mid == mid;
    } else {
      var front := prefix[..|prefix| - 1];
      JoinAtLastBreak(prefix, mid);
      TokenUsageAcrossLineBreak(front, mid);
      LastOfAppend(TokenUsageMatches(front), line);
    }
  }

  lemma Regroup(w: string, x: string, y: string, z: string)
    ensures w + x + y + z == w + (x + y + z)
  {
  }

  /** A text ending a line is its text before that line break, the break, and nothing more. */
  lemma JoinAtLastBreak(prefix: string, rest: string)
    requires |prefix| > 0 && prefix[|prefix| - 1] == '\n'
    ensures prefix + rest == prefix[..|prefix| - 1] + "\n" + rest
  {
    assert prefix == prefix[..|prefix| - 1] + "\n";
  }

  lemma LastOfAppend(xs: seq<string>, x: string)
    ensures |xs + [x]| > 0 && (xs + [x])[|xs + [x]| - 1] == x
  {
  }

  /** A marker, one line, then only marker-free lines: exactly that line matches. */
  lemma OnlyMatch(line: string, suffix: string)
    requires '\n' !in line
    requires StartsLine(suffix) && !Occurs(suffix, TokenUsageMarker)
    ensures TokenUsageMatches(TokenUsageMarker + line + suffix) == [line]
  {
    LineMatch(line);
    if |suffix| == 0 {
      assert TokenUsageMarker + line + suffix == TokenUsageMarker + line;
    } else {
      var rest := suffix[1..];
      JoinAtFirstBreak(TokenUsageMarker + line, suffix);
      MarkersInLine();
      BreakOpensNothing(suffix, TokenUsageMarker);
      OccursInTail(suffix, TokenUsageMarker);
      TokenUsageAcrossLineBreak(TokenUsageMarker + line, rest);
    }
  }

  lemma JoinAtFirstBreak(x: string, suffix: string)
    requires |suffix| > 0 && suffix[0] == '\n'
    ensures x + suffix == x + "\n" + suffix[1..]
  {
    assert suffix == "\n" + suffix[1..];
  }

  /** A pattern without a line break does not open a text that opens with one. */
  lemma BreakOpensNothing(s: string, pattern: string)
    requires |s| > 0 && s[0] == '\n'
    requires |pattern| > 0 && '\n' !in pattern
    ensures !OccursAt(s, pattern, 0)
  {
    if |s| >= |pattern| {
      assert s[..|pattern|][0] == '\n' != pattern[0];
    }
  }

  /** A single marker followed by one line yields exactly that line. */
  lemma LineMatch(line: string)
    requires '\n' !in line
    ensures TokenUsageMatches(TokenUsageMarker + line) == [line]
  {
    var s := TokenUsageMarker + line;
    var p := |TokenUsageMarker|;
    assert s[..p] == TokenUsageMarker;
    assert s[p..] == line;
    assert RestOfLine(line) == line;
    assert s[p + |line|..] == "";
  }
}

=== FILE: SandboxClient.dfy ===
/**
 * The process-wide sandbox client of app/sandbox/client.py.
 *
 * The client holds at most one driver session. `create` decides from the
 * configuration whether the sandbox is enabled and, if so and no session exists,
 * builds one driver and stores it before running the driver's own creation.
 * The five accessors forward to the driver or raise "Sandbox not initialized";
 * `cleanup` tears the driver down and then forgets it.
 *
 * The driver is opaque: every call made to it is recorded in the step's `calls`,
 * and its reply is an input of the step.
 */
module SandboxClient {
  import opened Outcomes

  /** Reading of an optional attribute: not present, present as None, or present with a boolean. */
  datatype Flag = Missing | Null | Value(enabled: bool)

  /** The `config` argument of `create`: Python None, or a settings object whose `use_sandbox` attribute reads as a Flag. */
  datatype Settings = NoSettings | Settings(useSandbox: Flag)

  /** The global configuration module as `create` reaches it. */
  datatype GlobalConfig =
    | Unavailable                  // importing it raises
    | Loaded(sandbox: Option<Flag>)  // None: reading its sandbox section raises

  /** A driver object. `serial` stands for object identity: the driver is the serial-th one this client built. */
  datatype Driver = Driver(serial: nat, settings: Settings, volumes: Option<map<string, string>>)

  /** A call into the driver, with the arguments it received. */
  datatype Request =
    | DoCreate
    | DoRunCommand(command: string, timeout: Option<int>)
    | DoCopyFrom(containerPath: string, localPath: string)
    | DoCopyTo(localPath: string, containerPath: string)
    | DoReadFile(path: string)
    | DoWriteFile(path: string, content: string)
    | DoCleanup

  datatype Call = Construct(driver: Driver) | Invoke(driver: Driver, request: Request)

  /** The client: its session, and how many drivers it has built so far. */
  datatype Client = Client(session: Option<Driver>, built: nat)

  /** One client operation: the client afterwards, what the operation returned or raised, and the driver calls it made. */
  datatype Step<+T> = Step(client: Client, result: Outcome<T>, calls: seq<Call>)

  const NotInitialized := "Sandbox not initialized"

  const Fresh := Client(None, 0)

  /** The session, if any, is one of the drivers this client built. */
  predicate Valid(c: Client) {
    c.session.Some? ==> c.session.value.serial < c.built
  }

  // ---------------------------------------------------------------------------
  // The singleton (lines 87-109)

  /**
   * `LocalSandboxClient()`: the class slot `_instance` holds the one client. The
   * first construction fills it with a client without a session; every later one
   * returns the client already there, session untouched.
   */
  function Instantiate(slot: Option<Client>): (r: (Option<Client>, Client))
    ensures r.0 == Some(r.1)
    ensures slot.Some? ==> r.1 == slot.value
    ensures slot.None? ==> r.1.session.None? && Valid(r.1)
  {
    match slot
    case Some(c) => (slot, c)
    case None => (Some(Fresh), Fresh)
  }

  /** `get_instance()`: builds the client through the constructor only when the slot is empty. */
  function GetInstance(slot: Option<Client>): (r: (Option<Client>, Client))
    ensures r == Instantiate(slot)
  {
    if slot.None? then Instantiate(slot) else (slot, slot.value)
  }

  /** Constructing the client twice yields the same client, whatever session it holds. */
  lemma InstantiateTwice(slot: Option<Client>)
    ensures Instantiate(Instantiate(slot).0) == Instantiate(slot)
  {
  }

  // ---------------------------------------------------------------------------
  // create (lines 111-156)

  /** The explicit override: `config.use_sandbox` when `config` has that attribute and it is not None. */
  function Override(settings: Settings): (r: Option<bool>)
    ensures r.Some? <==> settings.Settings? && settings.useSandbox.Value?
    ensures r.Some? ==> r.value == settings.useSandbox.enabled
  {
    match settings
    case Settings(Value(b)) => Some(b)
    case _ => None
  }

  /**
   * Whether `create` goes on to build a driver. The global module is imported
   * before the override is read, so a failing import means enabled whatever the
   * override says. Otherwise the override wins; without one the global
   * `sandbox.use_sandbox` decides, defaulting to enabled when the attribute is
   * missing or the section cannot be read; a global value of None disables.
   */
  function ResolveUseSandbox(settings: Settings, global: GlobalConfig): (enabled: bool)
    ensures !enabled <==>
      && global.Loaded?
      && (|| Override(settings) == Some(false)
          || (Override(settings).None? && (global.sandbox == Some(Null) || global.sandbox == Some(Value(false)))))
  {
    match global
    case Unavailable => true
    case Loaded(section) =>
      match Override(settings)
      case Some(b) => b
      case None =>
        match section
        case None => true
        case Some(Missing) => true
        case Some(Null) => false
        case Some(Value(b)) => b
  }

  /**
   * How building the driver goes: `DockerSandbox(config, volume_bindings)`
   * raises, or it returns a driver whose own `create()` then replies.
   */
  datatype DriverStart = ConstructRaised(message: string) | Constructed(created: Outcome<()>)

  /**
   * `create(config, volume_bindings)`. With a session present it returns at once.
   * Otherwise, when enabled, it builds exactly one driver from the two arguments.
   * A constructor that raises propagates and leaves no session. A built driver
   * is stored, and only then runs its own creation, whose failure propagates
   * but leaves the session set.
   */
  function Create(c: Client, settings: Settings, volumes: Option<map<string, string>>,
                  global: GlobalConfig, start: DriverStart): (s: Step<()>)
    ensures c.session.Some? ==> s == Step(c, Ok(()), [])
    ensures c.session.None? && !ResolveUseSandbox(settings, global) ==> s == Step(c, Ok(()), [])
    ensures c.session.None? && ResolveUseSandbox(settings, global) && start.ConstructRaised? ==>
      s == Step(c, Raised(start.message), [])
    ensures c.session.None? && ResolveUseSandbox(settings, global) && start.Constructed? ==>
      && s.client.session == Some(Driver(c.built, settings, volumes))
      && s.client.built == c.built + 1
      && s.calls == [Construct(s.client.session.value), Invoke(s.client.session.value, DoCreate)]
      && s.result == start.created
    ensures Valid(c) ==> Valid(s.client)
  {
    if c.session.Some? then Step(c, Ok(()), [])
    else if !ResolveUseSandbox(settings, global) then Step(c, Ok(()), [])
    else
      match start
      case ConstructRaised(m) => Step(c, Raised(m), [])
      case Constructed(created) =>
        var d := Driver(c.built, settings, volumes);
        Step(Client(Some(d), c.built + 1), created, [Construct(d), Invoke(d, DoCreate)])
  }

  // ---------------------------------------------------------------------------
  // The forwarding accessors (lines 158-231)

  /** The shared shape of the accessors: raise without a session, else pass the request to the driver. */
  function Forward<T>(c: Client, request: Request, reply: Outcome<T>): (s: Step<T>)
    ensures s.client == c
    ensures c.session.None? ==> s.result == Raised(NotInitialized) && s.calls == []
    ensures c.session.Some? ==> s.result == reply && s.calls == [Invoke(c.session.value, request)]
  {
    match c.session
    case None => Step(c, Raised(NotInitialized), [])
    case Some(d) => Step(c, reply, [Invoke(d, request)])
  }

  /** `run_command(command, timeout)`: the driver's output, or "Sandbox not initialized" without touching any driver. */
  function RunCommand(c: Client, command: string, timeout: Option<int>, reply: Outcome<string>): (s: Step<string>)
    ensures s.client == c
    ensures c.session.None? ==> s.result == Raised(NotInitialized) && s.calls == []
    ensures c.session.Some? ==> s.result == reply && s.calls == [Invoke(c.session.value, DoRunCommand(command, timeout))]
  {
    Forward(c, DoRunCommand(command, timeout), reply)
  }

  /** `copy_from(container_path, local_path)`. */
  function CopyFrom(c: Client, containerPath: string, localPath: string, reply: Outcome<()>): (s: Step<()>)
    ensures s.client == c
    ensures c.session.None? ==> s.result == Raised(NotInitialized) && s.calls == []
    ensures c.session.Some? ==> s.result == reply && s.calls == [Invoke(c.session.value, DoCopyFrom(containerPath, localPath))]
  {
    Forward(c, DoCopyFrom(containerPath, localPath), reply)
  }

  /** `copy_to(local_path, container_path)`. */
  function CopyTo(c: Client, localPath: string, containerPath: string, reply: Outcome<()>): (s: Step<()>)
    ensures s.client == c
    ensures c.session.None? ==> s.result == Raised(NotInitialized) && s.calls == []
    ensures c.session.Some? ==> s.result == reply && s.calls == [Invoke(c.session.value, DoCopyTo(localPath, containerPath))]
  {
    Forward(c, DoCopyTo(localPath, containerPath), reply)
  }

  /** `read_file(path)`: the file's content as the driver returns it. */
  function ReadFile(c: Client, path: string, reply: Outcome<string>): (s: Step<string>)
    ensures s.client == c
    ensures c.session.None? ==> s.result == Raised(NotInitialized) && s.calls == []
    ensures c.session.Some? ==> s.result == reply && s.calls == [Invoke(c.session.value, DoReadFile(path))]
  {
    Forward(c, DoReadFile(path), reply)
  }

  /** `write_file(path, content)`. */
  function WriteFile(c: Client, path: string, content: string, reply: Outcome<()>): (s: Step<()>)
    ensures s.client == c
    ensures c.session.None? ==> s.result == Raised(NotInitialized) && s.calls == []
    ensures c.session.Some? ==> s.result == reply && s.calls == [Invoke(c.session.value, DoWriteFile(path, content))]
  {
    Forward(c, DoWriteFile(path, content), reply)
  }

  // ---------------------------------------------------------------------------
  // cleanup (lines 233-237)

  /**
   * `cleanup()`: nothing without a session. With one, the driver's cleanup runs
   * once; the session is forgotten only if that call returns, otherwise its
   * exception propagates and the session stays.
   */
  function Cleanup(c: Client, reply: Outcome<()>): (s: Step<()>)
    ensures c.session.None? ==> s == Step(c, Ok(()), [])
    ensures c.session.Some? ==> s.result == reply && s.calls == [Invoke(c.session.value, DoCleanup)]
    ensures c.session.Some? ==> (s.client.session.None? <==> reply.Ok?)
    ensures s.client.session.Some? ==> s.client.session == c.session
    ensures s.client.built == c.built
  {
    match c.session
    case None => Step(c, Ok(()), [])
    case Some(d) =>
      match reply
      case Ok(_) => Step(Client(None, c.built), reply, [Invoke(d, DoCleanup)])
      case Raised(_) => Step(c, reply, [Invoke(d, DoCleanup)])
  }

  // ---------------------------------------------------------------------------
  // Properties of sequences of operations

  /** Once a session exists, a second `create` — whatever its arguments — returns at once and changes nothing. */
  lemma CreateIsIdempotent(c: Client, s1: Settings, v1: Option<map<string, string>>, g1: GlobalConfig, r1: DriverStart,
                           s2: Settings, v2: Option<map<string, string>>, g2: GlobalConfig, r2: DriverStart)
    requires (ResolveUseSandbox(s1, g1) && r1.Constructed?) || c.session.Some?
    ensures var first := Create(c, s1, v1, g1, r1);
            Create(first.client, s2, v2, g2, r2) == Step(first.client, Ok(()), [])
  {
  }

  /** A constructor that raises stores nothing, so the next enabled `create` builds a driver again. */
  lemma FailedConstructionIsRetried(c: Client, settings: Settings, volumes: Option<map<string, string>>, global: GlobalConfig,
                                    message: string, start: DriverStart)
    requires c.session.None? && ResolveUseSandbox(settings, global) && start.Constructed?
    ensures var first := Create(c, settings, volumes, global, ConstructRaised(message));
            var second := Create(first.client, settings, volumes, global, start);
            && first.result == Raised(message)
            && first.client == c
            && second.client.session == Some(Driver(c.built, settings, volumes))
  {
  }

  /** A disabled `create` leaves no session, so the next `run_command` raises "Sandbox not initialized" and calls no driver. */
  lemma DisabledThenRunFails(settings: Settings, volumes: Option<map<string, string>>, global: GlobalConfig,
                             r: DriverStart, command: string, timeout: Option<int>, reply: Outcome<string>)
    requires !ResolveUseSandbox(settings, global)
    ensures var created := Create(Fresh, settings, volumes, global, r);
            && created.client.session.None?
            && RunCommand(created.client, command, timeout, reply) == Step(created.client, Raised(NotInitialized), [])
  {
  }

  /** create, a successful cleanup, and create again: the second create builds a new driver, not the first one. */
  lemma RestartBuildsFreshDriver(c: Client, s1: Settings, v1: Option<map<string, string>>, g1: GlobalConfig, r1: DriverStart,
                                 s2: Settings, v2: Option<map<string, string>>, g2: GlobalConfig, r2: DriverStart)
    requires c.session.None? && Valid(c)
    requires r1.Constructed? && r2.Constructed?
    requires ResolveUseSandbox(s1, g1) && ResolveUseSandbox(s2, g2)
    ensures var first := Create(c, s1, v1, g1, r1);
            var cleaned := Cleanup(first.client, Ok(()));
            var second := Create(cleaned.client, s2, v2, g2, r2);
            && cleaned.client.session.None?
            && second.client.session.Some?
            && second.client.session != first.client.session
            && second.calls[0] == Construct(second.client.session.value)
  {
  }

  /** Any client operation, with the driver's reply it receives. */
  datatype Op =
    | CreateOp(settings: Settings, volumes: Option<map<string, string>>, global: GlobalConfig, start: DriverStart)
    | RunCommandOp(command: string, timeout: Option<int>, output: Outcome<string>)
    | CopyFromOp(containerPath: string, localPath: string, reply: Outcome<()>)
    | CopyToOp(localPath: string, containerPath: string, reply: Outcome<()>)
    | ReadFileOp(path: string, content: Outcome<string>)
    | WriteFileOp(path: string, text: string, reply: Outcome<()>)
    | CleanupOp(cleanupReply: Outcome<()>)

  function Apply(c: Client, op: Op): (Client, seq<Call>)
  {
    match op
    case CreateOp(s, v, g, r) => var st := Create(c, s, v, g, r); (st.client, st.calls)
    case RunCommandOp(cmd, t, r) => var st := RunCommand(c, cmd, t, r); (st.client, st.calls)
    case CopyFromOp(cp, lp, r) => var st := CopyFrom(c, cp, lp, r); (st.client, st.calls)
    case CopyToOp(lp, cp, r) => var st := CopyTo(c, lp, cp, r); (st.client, st.calls)
    case ReadFileOp(p, r) => var st := ReadFile(c, p, r); (st.client, st.calls)
    case WriteFileOp(p, t, r) => var st := WriteFile(c, p, t, r); (st.client, st.calls)
    case CleanupOp(r) => var st := Cleanup(c, r); (st.client, st.calls)
  }

  /** Runs the operations in order; the result is the final client and every driver call made. */
  function RunOps(c: Client, ops: seq<Op>): (Client, seq<Call>)
    decreases |ops|
  {
    if |ops| == 0 then (c, [])
    else
      var before := RunOps(c, ops[..|ops| - 1]);
      var after := Apply(before.0, ops[|ops| - 1]);
      (after.0, before.1 + after.1)
  }

  /** Every driver ever built, other than the current session, has been asked to clean up. */
  predicate NoAbandonedDriver(c: Client, calls: seq<Call>) {
    forall i :: 0 <= i < |calls| && calls[i].Construct? && c.session != Some(calls[i].driver) ==>
      Invoke(calls[i].driver, DoCleanup) in calls
  }

  lemma ApplyKeepsNoAbandonedDriver(c: Client, calls: seq<Call>, op: Op)
    requires NoAbandonedDriver(c, calls)
    ensures NoAbandonedDriver(Apply(c, op).0, calls + Apply(c, op).1)
  {
    var (c', more) := Apply(c, op);
    var all := calls + more;
    forall i | 0 <= i < |all| && all[i].Construct? && c'.session != Some(all[i].driver)
      ensures Invoke(all[i].driver, DoCleanup) in all
    {
      var d := all[i].driver;
      if i < |calls| {
        assert calls[i] == all[i];
        if c.session != Some(d) {
          assert Invoke(d, DoCleanup) in calls;
        } else {
          assert op.CleanupOp? && more == [Invoke(d, DoCleanup)];
        }
      }
    }
  }

  /**
   * The client never abandons a driver: starting from a fresh client, after any
   * sequence of operations each driver it built is either the current session
   * or has had its cleanup called. So at most one driver is live at a time.
   */
  lemma {:induction false} NoDriverIsAbandoned(ops: seq<Op>)
    ensures NoAbandonedDriver(RunOps(Fresh, ops).0, RunOps(Fresh, ops).1)
    decreases |ops|
  {
    if |ops| > 0 {
      NoDriverIsAbandoned(ops[..|ops| - 1]);
      var before := RunOps(Fresh, ops[..|ops| - 1]);
      ApplyKeepsNoAbandonedDriver(before.0, before.1, ops[|ops| - 1]);
    }
  }
}

=== FILE: Text.dfy ===
/**
 * The pieces of Python's string library that the modelled code relies on:
 * `str.strip()`, `str.split(sep)`, `str.split(sep, 1)`, `int(text)`,
 * f-string formatting of an `int`, and `pathlib.Path(p).name`.
 */
module Text {
  import opened Outcomes

  /**
   * Python's `str.isspace()` for one character: the set `strip()` removes. `int()`
   * skips the same set except the information separators; see `ParseInt`.
   */
  predicate IsSpace(c: char) {
    || c == ' '
    || '\t' <= c <= '\r'
    || '\U{1C}' <= c <= '\U{1F}'
    || c == '\U{85}'
    || c == '\U{A0}'
    || c == '\U{1680}'
    || '\U{2000}' <= c <= '\U{200A}'
    || c == '\U{2028}'
    || c == '\U{2029}'
    || c == '\U{202F}'
    || c == '\U{205F}'
    || c == '\U{3000}'
  }

  predicate AllSpace(s: string) {
    forall i :: 0 <= i < |s| ==> IsSpace(s[i])
  }

  /** True when `s` has no white space at either end (so `strip()` leaves it alone). */
  predicate Trimmed(s: string) {
    |s| == 0 || (!IsSpace(s[0]) && !IsSpace(s[|s| - 1]))
  }

  predicate IsDigit(c: char) {
    '0' <= c <= '9'
  }

  predicate AllDigits(s: string) {
    forall i :: 0 <= i < |s| ==> IsDigit(s[i])
  }

  // ---------------------------------------------------------------------------
  // str.strip()

  function StripLeft(s: string): (r: string)
    ensures |r| <= |s| && r == s[|s| - |r|..]
    ensures AllSpace(s[..|s| - |r|])
    ensures |r| == 0 || !IsSpace(r[0])
    decreases |s|
  {
    if |s| > 0 && IsSpace(s[0]) then
      var r := StripLeft(s[1..]);
      assert s[..|s| - |r|] == [s[0]] + s[1..][..|s| - 1 - |r|];
      r
    else
      s
  }

  function StripRight(s: string): (r: string)
    ensures |r| <= |s| && r == s[..|r|]
    ensures AllSpace(s[|r|..])
    ensures |r| == 0 || !IsSpace(r[|r| - 1])
    decreases |s|
  {
    if |s| > 0 && IsSpace(s[|s| - 1]) then
      var r := StripRight(s[..|s| - 1]);
      assert s[|r|..] == s[..|s| - 1][|r|..] + [s[|s| - 1]];
      r
    else
      s
  }

  /** `r` sits in `s` with nothing but white space before and after it. */
  ghost predicate Framed(s: string, r: string) {
    exists i :: 0 <= i <= |s| - |r| && s[i..i + |r|] == r && AllSpace(s[..i]) && AllSpace(s[i + |r|..])
  }

  /**
   * `s.strip()`: `s` is the result framed by white space on both sides, and the
   * result neither starts nor ends with white space.
   */
  function Strip(s: string): (r: string)
    ensures Trimmed(r)
    ensures Framed(s, r)
  {
    var l := StripLeft(s);
    var r := StripRight(l);
    FrameOfStrip(s, l, r);
    assert |r| > 0 ==> r[0] == l[0];
    r
  }

  lemma FrameOfStrip(s: string, l: string, r: string)
    requires |l| <= |s| && l == s[|s| - |l|..] && AllSpace(s[..|s| - |l|])
    requires |r| <= |l| && r == l[..|r|] && AllSpace(l[|r|..])
    ensures Framed(s, r)
  {
    var i := |s| - |l|;
    assert s[i..i + |r|] == r by {
      assert s[i..i + |r|] == l[..|r|];
    }
    assert s[i + |r|..] == l[|r|..];
    assert AllSpace(s[..i]) && AllSpace(s[i + |r|..]);
  }

  lemma {:induction false} StripLeftOfPadded(a: string, t: string)
    requires AllSpace(a)
    requires |t| == 0 || !IsSpace(t[0])
    ensures StripLeft(a + t) == t
    decreases |a|
  {
    if |a| > 0 {
      assert (a + t)[1..] == a[1..] + t;
      StripLeftOfPadded(a[1..], t);
    } else {
      assert a + t == t;
    }
  }

  lemma {:induction false} StripRightOfPadded(t: string, b: string)
    requires AllSpace(b)
    requires |t| == 0 || !IsSpace(t[|t| - 1])
    ensures StripRight(t + b) == t
    decreases |b|
  {
    if |b| > 0 {
      assert (t + b)[..|t + b| - 1] == t + b[..|b| - 1];
      StripRightOfPadded(t, b[..|b| - 1]);
    } else {
      assert t + b == t;
    }
  }

  /** `strip()` undoes padding: whatever white space frames a trimmed text, stripping returns the text. */
  lemma StripOfPadded(a: string, t: string, b: string)
    requires AllSpace(a) && AllSpace(b) && Trimmed(t)
    ensures Strip(a + t + b) == t
  {
    if |t| == 0 {
      assert a + t + b == a + b;
      StripLeftOfPadded(a + b, "");
      assert a + b + "" == a + b;
      StripRightOfPadded("", "");
    } else {
      assert a + t + b == a + (t + b);
      StripLeftOfPadded(a, t + b);
      StripRightOfPadded(t, b);
    }
  }

  // ---------------------------------------------------------------------------
  // str.split(sep) and its inverse, sep.join(parts)

  function Join(parts: seq<string>, sep: char): string
    decreases |parts|
  {
    if |parts| == 0 then ""
    else if |parts| == 1 then parts[0]
    else parts[0] + [sep] + Join(parts[1..], sep)
  }

  /** `s.split(sep)`: at least one part, no part holds `sep`, and joining the parts with `sep` gives `s` back. */
  function Split(s: string, sep: char): (parts: seq<string>)
    ensures |parts| > 0
    ensures forall i :: 0 <= i < |parts| ==> sep !in parts[i]
    ensures Join(parts, sep) == s
    decreases |s|
  {
    if |s| == 0 then [""]
    else
      var rest := Split(s[1..], sep);
      if s[0] == sep then
        var parts := [""] + rest;
        assert parts[1..] == rest;
        assert s == [sep] + s[1..];
        parts
      else
        var parts := [[s[0]] + rest[0]] + rest[1..];
        assert s == [s[0]] + s[1..];
        assert sep !in [s[0]] + rest[0];
        if |rest| == 1 then
          parts
        else
          assert parts[1..] == rest[1..];
          parts
  }

  lemma {:induction false} SplitNoSeparator(p: string, sep: char)
    requires sep !in p
    ensures Split(p, sep) == [p]
    decreases |p|
  {
    if |p| > 0 {
      SplitNoSeparator(p[1..], sep);
      assert [p[0]] + p[1..] == p;
    }
  }

  lemma {:induction false} SplitFirstPart(p: string, sep: char, rest: string)
    requires sep !in p
    ensures Split(p + [sep] + rest, sep) == [p] + Split(rest, sep)
    decreases |p|
  {
    var s := p + [sep] + rest;
    if |p| == 0 {
      assert s[1..] == rest;
    } else {
      assert s[1..] == p[1..] + [sep] + rest;
      SplitFirstPart(p[1..], sep, rest);
      assert [p[0]] + p[1..] == p;
    }
  }

  /** Splitting a join gives the parts back, provided no part holds the separator. */
  lemma {:induction false} SplitJoin(parts: seq<string>, sep: char)
    requires |parts| > 0
    requires forall i :: 0 <= i < |parts| ==> sep !in parts[i]
    ensures Split(Join(parts, sep), sep) == parts
    decreases |parts|
  {
    if |parts| == 1 {
      SplitNoSeparator(parts[0], sep);
    } else {
      SplitJoin(parts[1..], sep);
      SplitFirstPart(parts[0], sep, Join(parts[1..], sep));
      assert [parts[0]] + parts[1..] == parts;
    }
  }

  // ---------------------------------------------------------------------------
  // str.split(sep, 1) and `sep in s`

  function FirstIndex(s: string, c: char): (r: Option<nat>)
    ensures r.None? <==> c !in s
    ensures r.Some? ==> r.value < |s| && s[r.value] == c && c !in s[..r.value]
    decreases |s|
  {
    if |s| == 0 then None
    else if s[0] == c then Some(0)
    else
      match FirstIndex(s[1..], c)
      case None =>
        assert s == [s[0]] + s[1..];
        None
      case Some(i) =>
        assert s[..i + 1] == [s[0]] + s[1..][..i];
        Some(i + 1)
  }

  /**
   * `s.split(sep, 1)` on a text that holds `sep`: the text before the first
   * separator and everything after it, later separators included.
   */
  function SplitOnce(s: string, sep: char): (r: Option<(string, string)>)
    ensures r.None? <==> sep !in s
    ensures r.Some? ==> s == r.value.0 + [sep] + r.value.1 && sep !in r.value.0
  {
    match FirstIndex(s, sep)
    case None => None
    case Some(i) =>
      assert s == s[..i] + [sep] + s[i + 1..];
      Some((s[..i], s[i + 1..]))
  }

  // ---------------------------------------------------------------------------
  // pathlib.Path(p).name

  /** The final path component: the longest suffix of `path` without a '/'. */
  function Basename(path: string): (name: string)
    ensures '/' !in name
    ensures |name| <= |path| && name == path[|path| - |name|..]
    ensures |name| == |path| || path[|path| - |name| - 1] == '/'
    decreases |path|
  {
    if |path| == 0 || path[|path| - 1] == '/' then ""
    else
      var front := path[..|path| - 1];
      var name := Basename(front) + [path[|path| - 1]];
      assert path == front + [path[|path| - 1]];
      name
  }

  // ---------------------------------------------------------------------------
  // Decimal integers: f"{n}" and int(text)

  function DigitChar(d: nat): (c: char)
    requires d < 10
    ensures IsDigit(c)
  {
    ('0' as int + d) as char
  }

  function DigitValue(c: char): (d: nat)
    requires IsDigit(c)
    ensures d < 10 && DigitChar(d) == c
  {
    c as int - '0' as int
  }

  /** The value of a plain digit string, most significant digit first. */
  function DigitsValue(s: string): nat
    requires AllDigits(s)
    decreases |s|
  {
    if |s| == 0 then 0 else DigitsValue(s[..|s| - 1]) * 10 + DigitValue(s[|s| - 1])
  }

  /** Decimal text of a natural number, with no leading zero. */
  function NatToString(n: nat): (r: string)
    ensures |r| > 0 && AllDigits(r) && DigitsValue(r) == n
    ensures r[0] == '0' ==> n == 0
    decreases n
  {
    if n < 10 then [DigitChar(n)]
    else
      var front := NatToString(n / 10);
      var r := front + [DigitChar(n % 10)];
      assert r[..|r| - 1] == front;
      r
  }

  /** `f"{n}"` for an `int`: a minus sign for negative numbers, then the digits. */
  function IntToString(n: int): (r: string)
    ensures |r| > 0 && Trimmed(r)
    ensures n >= 0 ==> AllDigits(r) && DigitsValue(r) == n
    ensures n < 0 ==> r[0] == '-' && AllDigits(r[1..]) && DigitsValue(r[1..]) == -n
  {
    if n < 0 then
      var r := "-" + NatToString(-n);
      assert r[1..] == NatToString(-n);
      r
    else NatToString(n)
  }

  /** The information separators U+001C..U+001F: white space to `str.isspace()` and `strip()`, never to `int()`. */
  predicate IsInfoSeparator(c: char) {
    '\U{1C}' <= c <= '\U{1F}'
  }

  predicate HasInfoSeparator(s: string) {
    exists i :: 0 <= i < |s| && IsInfoSeparator(s[i])
  }

  /**
   * `int(text)` for base-10 text: optional white space, an optional sign, one or
   * more digits, optional white space. Anything else raises ValueError (None here).
   *
   * CPython's digit parser skips only ' ' and '\t'..'\r'. A text with a
   * non-ASCII character is first converted, but that step replaces only the
   * non-ASCII white space by ' ' and copies every character below U+007F as it
   * is. So an information separator reaches the digit parser in every text and
   * is an error wherever it stands, although `strip()` removes it. Every other
   * `isspace()` character is skipped at either end, exactly as `strip()` does.
   * A run of more than `MaxStrDigits` digits is refused as well.
   */
  function ParseInt(s: string): (r: Option<int>)
    ensures r.Some? ==> !AllSpace(s)
    ensures HasInfoSeparator(s) ==> r.None?
    ensures AllDigits(Strip(s)) && |Strip(s)| > MaxStrDigits ==> r.None?
  {
    if HasInfoSeparator(s) then None else ParseTrimmed(Strip(s))
  }

  /** An information separator stops `int()`, on ASCII text and next to non-ASCII white space alike. */
  lemma InfoSeparatorStopsInt()
    ensures ParseInt("\U{1C}5") == None
    ensures ParseInt("\U{1C}5\U{A0}") == None
  {
    var s := "\U{1C}5";
    assert IsInfoSeparator(s[0]);
    var w := "\U{1C}5\U{A0}";
    assert IsInfoSeparator(w[0]);
  }

  /**
   * The default of `sys.get_int_max_str_digits()` (Python 3.11 and later):
   * `int()` refuses a text of more digits, and `str()` an integer of more.
   */
  const MaxStrDigits := 4300

  /** `int(text)` once the white space is gone: an optional sign, then one to `MaxStrDigits` digits. */
  function ParseTrimmed(t: string): (r: Option<int>)
    ensures r.Some? ==> |t| > 0 && !IsSpace(t[0])
    ensures r.Some? ==> |t| <= MaxStrDigits || (|t| == MaxStrDigits + 1 && (t[0] == '+' || t[0] == '-'))
  {
    if |t| > 0 && (t[0] == '+' || t[0] == '-') then
      var digits := t[1..];
      if 0 < |digits| <= MaxStrDigits && AllDigits(digits) then
        Some(if t[0] == '-' then -(DigitsValue(digits) as int) else DigitsValue(digits))
      else None
    else if 0 < |t| <= MaxStrDigits && AllDigits(t) then Some(DigitsValue(t))
    else None
  }

  /** 10 to the power `k`. */
  function Pow10(k: nat): (p: nat)
    ensures p >= 1
  {
    if k == 0 then 1 else 10 * Pow10(k - 1)
  }

  /** The number of decimal digits of `n`, its sign not counted. */
  function DigitCount(n: int): (d: nat)
    ensures d >= 1
  {
    if n < 0 then |NatToString(-n)| else |NatToString(n)|
  }

  /** A natural number has at most `k` digits exactly when it is below 10^k. */
  lemma {:induction false} NatDigitsBelow(m: nat, k: nat)
    requires k >= 1
    ensures |NatToString(m)| <= k <==> m < Pow10(k)
    decreases m
  {
    if m < 10 {
      assert Pow10(k) == 10 * Pow10(k - 1);
    } else if k == 1 {
      assert |NatToString(m)| == |NatToString(m / 10)| + 1;
    } else {
      assert |NatToString(m)| == |NatToString(m / 10)| + 1;
      NatDigitsBelow(m / 10, k - 1);
      assert Pow10(k) == 10 * Pow10(k - 1);
    }
  }

  /** An integer has at most `k` digits exactly when its magnitude is below 10^k. */
  lemma DigitCountBelow(n: int, k: nat)
    requires k >= 1
    ensures DigitCount(n) <= k <==> -(Pow10(k) as int) < n < Pow10(k)
  {
    if n < 0 {
      NatDigitsBelow(-n, k);
    } else {
      NatDigitsBelow(n, k);
    }
  }

  /** A rendered integer within the digit limit, read without surrounding white space, gives the integer. */
  lemma ParseTrimmedOfString(n: int)
    requires DigitCount(n) <= MaxStrDigits
    ensures ParseTrimmed(IntToString(n)) == Some(n)
  {
    var t := IntToString(n);
    if n < 0 {
      assert t[0] == '-';
      assert t[1..] == NatToString(-n);
    } else {
      assert IsDigit(t[0]);
    }
  }

  /** A run of more digits than the limit is refused, whatever white space surrounds it. */
  lemma TooManyDigitsStopsInt(a: string, t: string, b: string)
    requires AllSpace(a) && AllSpace(b)
    requires AllDigits(t) && |t| > MaxStrDigits
    ensures ParseInt(a + t + b) == None
  {
    assert !IsSpace(t[0]) && !IsSpace(t[|t| - 1]);
    StripOfPadded(a, t, b);
  }

  /** A rendered integer holds no information separator: only digits and the minus sign. */
  lemma IntToStringChars(n: int)
    ensures var t := IntToString(n);
            forall i :: 0 <= i < |t| ==> IsDigit(t[i]) || (i == 0 && t[i] == '-')
    ensures !HasInfoSeparator(IntToString(n))
  {
    var t := IntToString(n);
    forall i | 0 <= i < |t|
      ensures IsDigit(t[i]) || (i == 0 && t[i] == '-')
    {
      if n < 0 && i > 0 {
        assert t[i] == t[1..][i - 1];
      }
    }
  }

  /** Padding `int()` skips around a formatted integer: white space other than the information separators. */
  predicate IntPadding(a: string, b: string) {
    AllSpace(a) && AllSpace(b) && !HasInfoSeparator(a + b)
  }

  /** Putting a text without information separators in the middle does not change whether there is one. */
  lemma PaddingAround(a: string, t: string, b: string)
    requires !HasInfoSeparator(t)
    ensures HasInfoSeparator(a + t + b) <==> HasInfoSeparator(a + b)
  {
    var s := a + t + b;
    var o := a + b;
    if HasInfoSeparator(s) {
      var i :| 0 <= i < |s| && IsInfoSeparator(s[i]);
      if i >= |a| + |t| {
        assert s[i] == o[i - |t|];
      } else if i >= |a| {
        assert false;
      } else {
        assert s[i] == o[i];
      }
    }
    if HasInfoSeparator(o) {
      var i :| 0 <= i < |o| && IsInfoSeparator(o[i]);
      if i >= |a| {
        assert IsInfoSeparator(s[i + |t|]);
      } else {
        assert IsInfoSeparator(s[i]);
      }
    }
  }

  /**
   * Reading back a formatted integer within the digit limit, with any padding
   * `int()` skips around it, gives the integer.
   */
  lemma ParseIntOfFormatted(n: int, a: string, b: string)
    requires DigitCount(n) <= MaxStrDigits
    requires IntPadding(a, b)
    ensures ParseInt(a + IntToString(n) + b) == Some(n)
  {
    IntToStringChars(n);
    PaddingAround(a, IntToString(n), b);
    StripOfPadded(a, IntToString(n), b);
    ParseTrimmedOfString(n);
  }

  /** `strip()` leaves a text without white space at its ends unchanged. */
  lemma StripOfTrimmed(t: string)
    requires Trimmed(t)
    ensures Strip(t) == t
  {
    StripOfPadded("", t, "");
    assert "" + t + "" == t;
  }

  /** A rendered integer within the digit limit reads back as itself. */
  lemma ParseIntOfString(n: int)
    requires DigitCount(n) <= MaxStrDigits
    ensures ParseInt(IntToString(n)) == Some(n)
  {
    IntToStringChars(n);
    StripOfTrimmed(IntToString(n));
    ParseTrimmedOfString(n);
  }
}
